=== FILE: README.md ===
# RoomCast core, modelled in Dafny

RoomCast is a browser application for rearranging the furniture of a 5 m × 8 m
room. The user types or speaks an instruction such as "move the sofa under the
window". An external reasoning service turns it into placement commands. The
application validates them, writes the new poses into its room state and
animates the furniture there. This project models the logic behind that loop.
Rendering, networking and audio are replaced by parameters. The model covers:

- **Spatial** (`src/spatial.js`): the trust boundary for the service's reply. It
  strips the code fence, requires the three top-level keys, drops actions for
  unknown ids and clamps each target by the item's half-width and half-depth.
  The instruction handler then applies the plan or maps the failure to one of
  two user messages.
- **Furniture** (`src/furniture.js`): the room state built from the catalog,
  the per-item undo history capped at ten entries, the quadratic ease-out
  tween, undo, and the rule for hiding labels.
- **Room** (`src/room.js`): the wall auto-hide predicate, the five named
  views, and camera transitions. A new transition cancels the previous one
  through a flag and uses an ease-in-out cubic.
- **Voice** (`src/voice.js`): the microphone button's five states as a
  transition system. It is driven by clicks, socket messages, closes and
  timers, and keeps a transcript accumulator and a one-shot reconnect flag.
- **Interact** (`src/furniture-interact.js`): the per-item reference-photo
  store, the data-URL split, the parts handed to the image renderer, the
  click-versus-drag test, the one-shot pending item and the hover highlight.
- **App** (`src/app.js`): the walk-mode key flags, the per-frame movement with
  its capped time step and room clamp, entering and leaving walk mode, the
  pointer lock, and what each frame does to the walls and labels.
- **Config**, **Text** and **Wrappers**: the room constants, the JavaScript
  `Math.max(lo, Math.min(v, hi))` clamp, linear interpolation, `trim` with
  JavaScript's whitespace set, ASCII lower-casing, `join`, and `Option` and
  `Result`.

Lengths are `real` metres and times are `real` milliseconds. Every mutation in
the source is a pure function here: it takes the old state and returns the
new one. An asynchronous callback becomes an explicit event.

Where the design description and the code differ, the model follows the code:

- The design describes rotation, variant swap and snapping an interrupted
  tween to its target. None of them exists in the code.
- `animateFurniture` records the mesh's current rendered position, which can
  be a mid-tween value. It also pushes history only when the mesh has loaded.
- `undoLastMove` starts a tween back without touching the history.

## Model

| member | source | states |
|---|---|---|
| Config.Clamp | src/spatial.js:93-94 | The result lies in `[lo, hi]` when the interval is non-empty, equals the input when the input already lies inside, and is `lo` when `hi < lo` (the outer `Math.max` wins) |
| Config.Lerp | src/furniture.js:222-223 | Interpolation starts at `a` for 0 and ends exactly at `b` for 1, and for a factor in [0, 1] never leaves the segment between them |
| Text.Trim | src/spatial.js:76 | The trimmed text has no leading or trailing whitespace, and it is empty exactly when the input is all whitespace |
| Text.TrimSplits | src/spatial.js:76 | The input is the leading whitespace, then the trimmed text, then the trailing whitespace, so trimming removes whitespace from the two ends and nothing else |
| Text.TrimIdempotent | src/voice.js:179-180 | Trimming an already trimmed text changes nothing, so the voice dispatch's `trim()` result is what the instruction handler sees |
| Text.JoinOffset | src/furniture-interact.js:323 | Every part appears in the `join` result at a computed offset |
| Text.ToLowerIdempotent | src/app.js:115 | Lower-casing a lower-cased key name changes nothing |
| Furniture.FindIndex | src/spatial.js:89 | `find` by id: the index of the first record with that id, none exactly when no record has it |
| Furniture.SetPose | src/spatial.js:146-149 | Writing a pose touches only the record with that id, only its x and z, and keeps every id in place |
| Furniture.InitRoom | src/furniture.js:19-32 | The room state copies the catalog in order, gives every catalog id an empty history and has no mesh yet; a catalog with unique ids gives a valid state |
| Furniture.LoadMesh | src/furniture.js:142-176 | A loaded model, fallback box or built group stands at its catalog entry's x and z; every other mesh keeps its presence and position; validity is preserved |
| Furniture.PushBounded | src/furniture.js:209-212 | Pushing then evicting keeps exactly the ten most recent entries, the new one last |
| Furniture.AnimateFurniture | src/furniture.js:203-216 | No mesh means no change and no tween; otherwise only this id's history changes, it gains the mesh's current position with the ten-entry cap, and a tween from there to the target starts; validity is preserved |
| Furniture.EaseOut | src/furniture.js:220-221 | The ease maps 0 to 0 and 1 to 1, stays in [0, 1] and never lags the linear progress |
| Furniture.EaseOutMonotone | src/furniture.js:221 | The ease never moves backwards on [0, 1] |
| Furniture.Progress | src/furniture.js:220 | Progress is the elapsed time over 500 ms until then, exactly 1 afterwards, never above 1, and non-negative for non-negative time |
| Furniture.TweenAt | src/furniture.js:219-224 | A tween frame starts on the start position, stays between start and target, and lands exactly on the target once the duration has passed |
| Furniture.ApplyFrame | src/furniture.js:222-223 | A frame writes only that item's mesh position and keeps the state valid |
| Furniture.UndoLastMove | src/furniture.js:229-253 | An empty or missing history changes nothing and fails; otherwise the newest entry is popped and written to the record, a tween back starts, and the result is true exactly when the mesh exists; validity is preserved |
| Furniture.PlaceAndAnimate | src/spatial.js:145-151 | An applied action writes the record's pose; the mesh is untouched, and the history gains the mesh's current position (not the new pose) under the ten-entry cap while other ids keep theirs; the tween runs from the mesh's position to the target; with no mesh there is no tween and no history change; validity is preserved |
| Furniture.SetPoseRestores | src/furniture.js:232-237 | Writing a pose and then writing the record's earlier pose back gives the original records |
| Furniture.UndoRestoresSettledMove | src/furniture.js:229-253 | Placing an item whose mesh rests on its record and then undoing succeeds, restores the records exactly, animates back to the original spot, and restores the history when it was not full |
| Furniture.MoveAndSettle | src/furniture.js:203-226 | A move whose tween runs to the end leaves the mesh exactly on the target and the state valid |
| Furniture.MoveAndSettleAll | src/furniture.js:203-226 | A sequence of settled moves keeps the state valid and the item's mesh present |
| Furniture.HistoryKeepsRecentPositions | src/furniture.js:208-212 | After any number of settled moves, the history is the ten most recent pre-move positions, oldest first: the original history, the first start and every target but the last |
| Furniture.LabelDisplay | src/furniture.js:182-199 | A label is untouched exactly when its mesh is missing; it is shown exactly when its mesh exists, labels are not hidden and the point is in front of the camera |
| Furniture.LabelsHidden | src/furniture.js:183 | XR always hides the labels; outside walk mode, or with the pointer unlocked, only XR does |
| Furniture.LabelHiddenExactly | src/furniture.js:182-199 | A loaded item's label is hidden exactly in locked walk mode, while XR presents, or when its point projects behind the camera |
| Furniture.CatalogAsWrittenOutOfBounds | src/furniture.js:4-6 | The catalog as written starts the sofa and the desk partly beyond the west wall |
| Furniture.CatalogInBounds | src/spatial.js:22-25 | The corrected catalog has unique ids, every item inside the room, and a valid initial state |
| Spatial.StripLeadingFenceAsWritten | src/spatial.js:77 | Only text starting with "```jso" loses an opening fence: "```json" (or "```jso" when no "n" follows) and exactly the whitespace run after it are removed, so the rest starts with no whitespace |
| Spatial.StripLeadingFence | src/spatial.js:77 | Text starting with "```json" loses those seven characters and the whitespace run after them; other text starting with "```" loses the three backticks and the whitespace after them; anything else is unchanged |
| Spatial.DropFence | src/spatial.js:77 | Removes the fence characters and exactly the whitespace run after them: what is removed past the fence is all whitespace, and what is kept starts with no whitespace |
| Spatial.StripTrailingFence | src/spatial.js:78 | When the text before its trailing whitespace ends in "```", the result is a prefix followed by that fence and whitespace, and the removed part starts with a newline exactly when a newline stands just before the fence; otherwise the text is unchanged |
| Spatial.CleanResponse | src/spatial.js:76-78 | A reply with no fence at either end reaches the parser trimmed and otherwise unchanged; in general the parser sees the trimmed reply less a prefix (the opening fence) and then less a suffix (the closing fence) |
| Spatial.CleanResponseAsWritten | src/spatial.js:76-78 | The same with the source's opening pattern: a reply neither starting with "```jso" nor ending in "```" is only trimmed |
| Spatial.JsonFenceRoundTrip | src/spatial.js:76-78 | A body wrapped in a "```json" fence comes back exactly, by both fence patterns |
| Spatial.BareFenceRoundTrip | src/spatial.js:76-78 | A body wrapped in a bare "```" fence comes back exactly under the corrected pattern |
| Spatial.BareFenceKeptAsWritten | src/spatial.js:77 | The source's pattern leaves the bare opening fence in front of the body |
| Spatial.FilterKnown | src/spatial.js:86 | An action survives exactly when its id is known |
| Spatial.FilterKnownAppend | src/spatial.js:86 | Filtering distributes over concatenation, so survivors keep their original order |
| Spatial.ClampAction | src/spatial.js:88-98 | Each axis of a known item's target is clamped to the room less half its footprint: kept when inside, moved to the end it passes otherwise, and to the lower end when the item is wider than the room; so the footprint fits whenever it can, and an in-bounds target is unchanged; an unknown id is clamped the same way into the bare room |
| Spatial.ClampActionIdempotent | src/spatial.js:93-94 | Clamping a clamped action changes nothing |
| Spatial.SofaClampExample | src/spatial.js:91-94 | A sofa sent to (10, -3) lands at (3.9, 0.45) |
| Spatial.ParseSpatialResponse | src/spatial.js:75-102 | The result is a syntax error exactly when the cleaned text does not parse, and a missing-keys error exactly when a key is absent or falsy; an accepted plan keeps both strings and exactly the known actions in order; every action is known and placed in bounds; with ids taken from the records the bare-room fallback never applies |
| Spatial.ApplyActions | src/spatial.js:145-152 | After the loop every record has the pose of the last action for its id (untouched when none); meshes are unchanged; the history keeps its key set; there is at most one tween per action; validity is preserved |
| Spatial.ApplyOne | src/spatial.js:146-151 | An action without a record changes nothing; otherwise the record takes the pose, the mesh is animated from where it stands to the pose, and only that id's history gains the mesh's position |
| Spatial.PlanStartsTweens | src/spatial.js:145-152 | The plan starts exactly one tween per action whose id has a record and a mesh, in plan order, from the mesh's position to the action's clamped pose |
| Spatial.PlanKeepsUnnamedHistory | src/spatial.js:145-152 | An id that no action names keeps its undo history |
| Spatial.PlanPushesStart | src/spatial.js:145-152 | An id with a mesh that the plan names ends with the mesh's pre-plan position on top of its history, which is what a later undo pops |
| Spatial.PlanKeepsItemsInBounds | src/spatial.js:89-94 | Applying any validated plan to records that fit inside the room keeps every record inside the room |
| Spatial.HandleTextInstruction | src/spatial.js:104-166 | Blank text does nothing; without a key only a hint is shown; a parse or missing-keys failure reports "Could not understand…" and every other failure "API error…", both leaving the session unchanged; only an accepted plan changes the session; validity is preserved |
| Spatial.AcceptedPlanApplied | src/spatial.js:143-155 | An accepted reply writes every record's last requested pose, stores the reply's room description and reports its user message |
| Spatial.MalformedReplyChangesNothing | src/spatial.js:158-165 | A reply the parser rejects leaves the room and the last description unchanged and reports "Could not understand…" |
| Room.UpdateWallVisibility | src/room.js:189-208 | No walls means no change; locked walk mode shows everything; otherwise each wall is visible exactly when the camera is on the inner side of it by more than the pad, and the ceiling when the camera is below it by more than 0.2 |
| Room.OppositeWallsNeverBothHidden | src/room.js:202-205 | Opposite walls are never hidden together, since the room is wider than twice the pad |
| Room.InsideCameraSeesEverything | src/room.js:202-206 | A camera inside the padded room and below the ceiling pad sees every wall and the ceiling; outside locked walk mode, a camera beyond a wall or above the ceiling hides it |
| Room.LookupView | src/room.js:4-10 | Exactly the five named views exist, with the corner view's position, target and field of view |
| Room.RawProgress | src/room.js:168 | The raw progress never exceeds 1, so the ease is never asked for a point past the view |
| Room.RawProgressRegimes | src/room.js:168 | For a positive duration the raw progress is the elapsed fraction until the duration has passed and exactly 1 from then on, and never negative after the start |
| Room.EffectiveDuration | src/room.js:152 | A missing or zero duration falls back to 800 ms, any other is kept |
| Room.AtMostOneRunning | src/room.js:154-167 | At most one transition is ever running |
| Room.TransitionToView | src/room.js:149-164 | An unknown view or an uninitialised viewer changes nothing; otherwise the running transition is cancelled, a new one from the current camera is appended and becomes current, and the one-running invariant is preserved |
| Room.EaseInOutCubic | src/room.js:170 | The ease maps 0 to 0, 1 to 1 and 0.5 to 0.5 from both branches, stays in [0, 1] and stays on its half of the range |
| Room.EaseInOutCubicMonotone | src/room.js:170 | The ease never moves backwards on [0, 1] |
| Room.StepTransition | src/room.js:166-180 | A cancelled or finished transition does nothing; a running one writes the interpolated camera (before the orbit controls' update, see Left out), and at full progress lands on the view and clears the marker |
| Room.StepKeepsLive | src/room.js:163-180 | A step preserves the one-running invariant |
| Room.CancelledTransitionIsInert | src/room.js:154-167 | Once a new view is requested, any later step of the old transition leaves the camera and every transition as they were |
| Voice.ButtonFor | src/voice.js:18-54 | The button is disabled exactly in the connecting and processing states, reads STOP exactly while recording, and has no style class exactly when disconnected or connecting |
| Voice.Connect | src/voice.js:117-121 | Without a key nothing happens; otherwise the state is connecting and the reconnect flag is re-armed |
| Voice.Reconnect | src/voice.js:117-121 | The corrected automatic reconnect: without a key nothing happens; otherwise only the state changes, to connecting, and the reconnect flag keeps the value the close handler set |
| Voice.StopRecording | src/voice.js:109-115 | Stopping a recording moves to processing and changes nothing else, the transcript included |
| Voice.OnClick | src/voice.js:212-225 | A disabled button ignores clicks; disconnected connects; ready clears the transcript; recording goes to processing |
| Voice.OnClose | src/voice.js:194-204 | A recording is stopped first; the first close marks the reconnect used and schedules one; a later close gives up to disconnected |
| Voice.OnTurnComplete | src/voice.js:178-191 | The transcript is emptied; the trimmed transcript is dispatched exactly when it is not blank; a blank turn returns to ready at once |
| Voice.OnMessage | src/voice.js:151-192 | Unparsable and error messages change nothing; setup-complete means ready; otherwise the fragment is appended, and with a turn-complete flag the turn then ends on the appended transcript |
| Voice.OnReconnectTimer | src/voice.js:199 | The corrected reconnect consumes one pending timer and reconnects while keeping the reconnect flag |
| Voice.OnReconnectTimerAsWritten | src/voice.js:117-121 | The source's reconnect runs the full connect, which re-arms the reconnect flag |
| Voice.Step | src/voice.js:101-166 | A connect timeout acts only while connecting; a granted microphone records; a denied one or a settled instruction returns to ready; only a turn-complete message dispatches anything |
| Voice.StepAsWritten | src/voice.js:194-204 | The source's machine agrees with the corrected one on every event but the reconnect timer, where it reconnects with the flag re-armed and so differs whenever the flag was set |
| Voice.DispatchedIsTrimmed | src/voice.js:179-182 | Dispatched text is never blank and has no surrounding whitespace |
| Voice.FragmentsAccumulateInOrder | src/voice.js:174-176 | Any run of transcription fragments appends them to the transcript in the order they are handled and changes nothing else |
| Voice.ReconnectNeverGivesUpAsWritten | src/voice.js:194-204 | With the source's reconnect, any number of failed connections never leads to disconnected: each close schedules yet another reconnect |
| Voice.ReconnectGivesUpAfterOneRetry | src/voice.js:194-204 | With the corrected reconnect, a connection that fails again after the automatic reconnect ends disconnected |
| Voice.SpokenTurnDispatchesTranscript | src/voice.js:174-182 | Clicking, being granted the microphone, receiving a fragment, clicking stop and receiving turn-complete dispatches the trimmed fragment |
| Interact.Lookup | src/furniture-interact.js:9 | The store has an entry for an id exactly when the id is among its keys |
| Interact.Put | src/furniture-interact.js:149 | Storing keeps an existing key in place and appends a new key last |
| Interact.PutKeyed | src/furniture-interact.js:149 | Storing keeps every key unique |
| Interact.PutThenLookup | src/furniture-interact.js:149 | After storing, the id maps to the new photo and every other id to what it mapped to before |
| Interact.Remove | src/furniture-interact.js:125 | Removing deletes exactly that id and keeps keys unique |
| Interact.RemoveThenLookup | src/furniture-interact.js:125 | After removal the id has no photo and every other id keeps its photo |
| Interact.UpToSemicolon | src/furniture-interact.js:148 | The lazy `(.*?);` group: at a `;` with no `;` or line terminator before it, the match is exactly the text before it; a match always ends at such a `;`; with no line terminator anywhere, a `;` guarantees a match |
| Interact.MatchMime | src/furniture-interact.js:148 | A header starting with `data:` and a match yields that match; any match is the lazy group at some `data:` in the header and holds no `;` or line terminator |
| Interact.SplitComma | src/furniture-interact.js:147 | The header is the text before the first comma, and the rest, when a comma exists, rebuilds the input |
| Interact.ParseDataUrl | src/furniture-interact.js:145-149 | A photo is produced exactly when the header has a mime, and it keeps the full data URL |
| Interact.DataUrlRoundTrip | src/furniture-interact.js:146-149 | A URL of the form `data:<mime>;base64,<payload>` yields exactly that mime and payload |
| Interact.Label | src/furniture-interact.js:95-101 | Ids outside the five-item label map are labelled by the id itself |
| Interact.GetFurnitureRefParts | src/furniture-interact.js:312-331 | Nothing exactly when no photo is stored; otherwise one part per photo in key order carrying its mime and payload, and a prompt with the fixed head and tail |
| Interact.PhotoMention | src/furniture-interact.js:316-323 | Every stored photo is named in the prompt by its label |
| Interact.IsClick | src/furniture-interact.js:265-270 | A click moves at most 5 px along each axis, and jitter of up to 3 px per axis is always a click |
| Interact.ClickThreshold | src/furniture-interact.js:267-270 | Jitter of up to 3 px per axis is a click, and a move of more than 5 px along an axis is a drag |
| Interact.OnPointerDown | src/furniture-interact.js:249-251 | A press records its position and changes nothing else, keeping the highlight and key invariant |
| Interact.OnPointerUp | src/furniture-interact.js:253-289 | A release with no press is ignored; every other release clears the press; the file chooser opens exactly for a click outside walk mode and the interface on a hit item, which becomes the pending item |
| Interact.OnFileChange | src/furniture-interact.js:137-142 | With no file or no pending item nothing happens; otherwise the pending item is read and consumed |
| Interact.OnFileLoaded | src/furniture-interact.js:145-151 | A data URL without a mime stores nothing; otherwise the photo is stored for the item, every other item keeps its photo, and nothing but the photo store changes; the hover and key invariants hold |
| Interact.OnRemove | src/furniture-interact.js:123-127 | The item's photo is gone, every other item keeps its photo, nothing but the photo store changes, and the invariants hold |
| Interact.OnPointerMove | src/furniture-interact.js:191-246 | Walk mode, the interface or no meshes clear the hover; otherwise the hovered item is the hit one; the same hit changes nothing; exactly the hovered item stays highlighted |
| Interact.PendingConsumedOnce | src/furniture-interact.js:139-142 | A second file change without a click in between reads nothing |
| Interact.ClickThenFileStoresPhoto | src/furniture-interact.js:137-151 | A click on an item followed by a chosen file stores the file's photo for that item |
| App.OnKey | src/app.js:114-136 | A key selects at most one flag by its lower-cased name; any other key changes nothing |
| App.KeyCaseInsensitive | src/app.js:114-136 | Upper and lower case select the same flag |
| App.ReleaseUndoesPress | src/app.js:114-136 | Pressing and then releasing a key leaves the flags as a release alone would, and an unrelated key leaves them as they were |
| App.Delta | src/app.js:144 | The time step is the elapsed time itself up to 100 ms and exactly 0.1 s from then on |
| App.Speed | src/app.js:147 | The distance per frame is 3 times the step without shift and 6 times the step with it, so at most 0.6 for a capped step |
| App.Walk | src/app.js:148-151 | Walking keeps the height; when each pair of opposite keys (w and s, a and d) is either both held or both released, the position does not change |
| App.WalkBounded | src/app.js:147-151 | For steps of at most 0.6 per axis, each axis moves by at most 1.2: one forward or back step and one sideways step |
| App.MoveCamera | src/app.js:148-155 | After any displacement the camera is inside the padded room at eye height; along x and z the walked position is kept when inside the padded range and moved to the end it passes otherwise |
| App.StandingStillStays | src/app.js:148-155 | With no key held, a camera in the walkable area does not move |
| App.FrameStepBounded | src/app.js:144-155 | One frame moves the camera by at most 1.2 along each axis |
| App.EnterFP | src/app.js:68-79 | Walk mode starts in the middle of the room at eye height with a 75° view, orbit controls off and the instructions shown |
| App.ExitFP | src/app.js:81-91 | Walk mode ends unlocked with orbit controls on, a 50° view and a 600 ms transition to the corner view, keeping the one-running invariant |
| App.OnDocumentClick | src/app.js:107-112 | The pointer locks exactly on a granted click in unlocked walk mode with the instructions showing and off the interface |
| App.OnUnlock | src/app.js:99-104 | Losing the lock always leaves walk mode |
| App.UpdateFPMovement | src/app.js:140-156 | Only locked walk mode moves the camera; there the state is the input with only the camera position replaced by the walked-and-clamped `MoveCamera` position, inside the walkable area |
| App.RenderFrame | src/app.js:224-231 | In walk mode the frame applies the walk-mode update; outside it the camera stands where the orbit controls' damped update put it; the walls are exactly what the wall update makes of them for the frame's camera position, mode and lock (so present exactly when walls exist); labels hide exactly in locked walk mode or XR |
| App.LockedWalkShowsWholeRoom | src/app.js:224-231 | In locked walk mode every frame shows all walls and the ceiling, hides the labels and keeps the camera in the walkable area |
| App.OrbitFrameHidesNearWalls | src/app.js:224-231 | Outside walk mode the camera stands where the orbit controls put it, a camera beyond a wall hides that wall, and labels hide only in XR |

## Findings

| source | as written | input that shows it | evidently intended | confidence | as-written member | corrected member |
|---|---|---|---|---|---|---|
| src/spatial.js:77 | the opening-fence pattern is three backticks, then "jso", an optional "n", then whitespace and an optional newline, so the opening fence is removed only when it is tagged "jso" or "json" | a reply whose opening fence is three backticks and a newline with no tag keeps that fence in front of the JSON, so the parse fails and the user sees "Could not understand…" | strip three backticks with an optional "json" tag | medium, not executed | Spatial.BareFenceKeptAsWritten | Spatial.BareFenceRoundTrip |
| src/voice.js:121 | the reconnect timer (line 199) calls `connectLiveAPI`, which resets `reconnectAttempted` to false | a connection that keeps closing: close, timer, close, timer, … never reaches "Voice unavailable" and reconnects every second forever | one automatic retry, then disconnected | medium, not executed | Voice.ReconnectNeverGivesUpAsWritten | Voice.ReconnectGivesUpAfterOneRetry |
| src/furniture.js:4-6 | the sofa (width 2.2) starts at x = 1.0 and the desk (width 1.2) at x = 0.5 | the sofa spans x from -0.1 to 2.1 and the desk from -0.1 to 1.1, beyond the west wall that every validated move respects | every footprint inside the room; the corrected catalogue takes the sofa and desk x values from the reset list (sofa x = 1.5, desk x = 1.0) and keeps the other records, whose footprints already fit (the reset list also puts the coffee table at z = 3.0 rather than 1.2, a difference of position only) | low, not executed | Furniture.CatalogAsWrittenOutOfBounds | Furniture.CatalogInBounds |

The rest of the model uses the corrected members: `Spatial.CleanResponse` strips
a bare fence, `Voice.Step` reconnects with `Voice.Reconnect`, and
`Spatial.SofaClampExample` clamps against `Furniture.Catalog`.

## Left out

- Three.js scene building, materials, lights, shadows, GLTF loading and scale normalisation: every mesh is just an `(x, z)` position in `Furniture.RoomState.meshes`.
- `JSON.parse` is the `decode` parameter of `Spatial.ParseSpatialResponse`. The reply is modelled as already typed, with `actions` a list of `{id, x, z}` numbers. A non-array `actions` or a non-numeric coordinate, which would raise a `TypeError` or produce `NaN`, is not modelled.
- The `fetch` exchange with the reasoning service is reduced to its outcome, `Spatial.ApiReply`. Image generation (`src/render.js`) and the interface text helpers (`src/ui.js`) are not part of this model.
- `requestAnimationFrame` and `performance.now`: tweens and transitions are functions of the elapsed time, and each frame is a separate call. Two tweens of the same mesh running at once, and overlapping in-flight instructions, are not modelled.
- Raycasting, screen projection and the pointer-lock controls' orientation are inputs: the hit id, the projected depth and the camera's right vector. Resetting the camera's rotation on entering walk mode is not modelled.
- WebSocket transport, audio capture and `float32ToBase64PCM`: the socket's behaviour is a stream of `Voice.Event`s. The `onerror` handler only shows text and is left out.
- The `FileReader` read itself, the indicator cards, emissive colours and cursor styles: the highlight is the set `Interact.Interaction.lit`.
- Floating point: all arithmetic is on reals, so rounding (5 − 1.1 in doubles, say) is not modelled.
- Spatial.ParseSpatialResponse: cleans the reply with the corrected opening-fence strip, so a reply fenced with a bare "```" is accepted, where the source's pattern keeps that fence and the parse fails (see Findings; the source's behaviour is `Spatial.CleanResponseAsWritten` and `Spatial.BareFenceKeptAsWritten`).
- Spatial.HandleTextInstruction: inherits the corrected fence strip above, so it accepts a bare-fenced reply that the source reports as "Could not understand…".
- Spatial.HandleTextInstruction: a reply that decodes to JSON `null`, or an `actions` array holding `null`, throws a `TypeError` in the source (reading `actions`, or `id` of the element), which is reported as "API error…". The typed `Spatial.Reply` cannot express either value, so these paths are not modelled.
- Spatial.ClampAction: uses the record's `w` and `d`. The source's fallbacks `width_m` and 0 apply only to records without a truthy width, which the catalog never has.
- Room.StepTransition: an intermediate frame's camera is the interpolated camera before the orbit controls' own update, which clamps the camera-to-target distance to [1, 18] and applies leftover damped input. That update is not modelled. On the landing frame the distance clamp has no effect, because every view stands 5.3 to 10 from its target.
- Voice.FragmentsAccumulateInOrder: "in order" is the order the message handler runs. A binary frame awaits its text, so a later text frame can be handled before it. The model takes handled messages as its input.
- Voice.Step: a connect timeout may arrive in any state; the source clears it once the socket opens. The model over-approximates here, and the timeout acts only while connecting either way. The reconnect timer keeps the reconnect flag (corrected, see Findings); the source's behaviour is `Voice.OnReconnectTimerAsWritten` and `Voice.StepAsWritten`.
- Text.ToLower: lowers ASCII letters only. This is exact for the five key names compared, since no non-ASCII character lower-cases into them.
- Interact.Put: keys keep insertion order. JavaScript orders integer-like keys first, which furniture ids never are.
- Interact.Label: does not model ids that name inherited object properties such as "constructor".
- App.FrameStepBounded: assumes the right vector's components lie in [-1, 1], as a unit horizontal vector's do.

=== FILE: app.dfy ===
/** The first-person walk mode: the key flags, the per-frame movement with
    its capped time step and room clamp, entering and leaving the mode, the
    pointer lock, and what a frame then does to the walls and labels. */
module App {
  import opened Wrappers
  import opened Config
  import opened Text
  import Room
  import Furniture

  const EyeHeight: real := 1.6
  const MoveSpeed: real := 3.0
  const SprintMult: real := 2.0
  const RoomPad: real := 0.3
  /** The longest time step one frame may take, in seconds. */
  const MaxDelta: real := 0.1

  /** `fpKeys`. */
  datatype Keys = Keys(w: bool, a: bool, s: bool, d: bool, shift: bool)

  const NoKeys: Keys := Keys(false, false, false, false, false)

  /** The keydown (`down`) and keyup handlers: the lower-cased key name
      selects at most one flag. */
  function OnKey(k: Keys, key: string, down: bool): (r: Keys)
    ensures ToLower(key) !in {"w", "a", "s", "d", "shift"} ==> r == k
    ensures ToLower(key) == "w" ==> r == k.(w := down)
    ensures ToLower(key) == "a" ==> r == k.(a := down)
    ensures ToLower(key) == "s" ==> r == k.(s := down)
    ensures ToLower(key) == "d" ==> r == k.(d := down)
    ensures ToLower(key) == "shift" ==> r == k.(shift := down)
  {
    var name := ToLower(key);
    if name == "w" then k.(w := down)
    else if name == "a" then k.(a := down)
    else if name == "s" then k.(s := down)
    else if name == "d" then k.(d := down)
    else if name == "shift" then k.(shift := down)
    else k
  }

  /** Upper and lower case select the same flag. */
  lemma KeyCaseInsensitive(k: Keys, key: string, down: bool)
    ensures OnKey(k, key, down) == OnKey(k, ToLower(key), down)
  {
    ToLowerIdempotent(key);
  }

  /** Releasing a key undoes pressing it: press then release leaves the
      flags as a release alone would. */
  lemma ReleaseUndoesPress(k: Keys, key: string)
    ensures OnKey(OnKey(k, key, true), key, false) == OnKey(k, key, false)
    ensures OnKey(OnKey(k, key, true), key, false) == k || ToLower(key) in {"w", "a", "s", "d", "shift"}
  {
  }

  /** The camera's horizontal right vector, which the pointer-lock controls
      derive from its orientation; forward is up × right = `(rz, -rx)`. */
  datatype Right = Right(rx: real, rz: real)

  /** The time step in seconds: `min(elapsed / 1000, 0.1)`. */
  function Delta(elapsedMs: real): (dt: real)
    ensures dt <= MaxDelta
    ensures elapsedMs >= 0.0 ==> dt >= 0.0
    ensures elapsedMs <= 100.0 ==> dt == elapsedMs / 1000.0
    ensures elapsedMs >= 100.0 ==> dt == MaxDelta
  {
    Min(elapsedMs / 1000.0, MaxDelta)
  }

  /** The distance this frame may cover: doubled while shift is held. */
  function Speed(k: Keys, dt: real): (v: real)
    ensures 0.0 <= dt <= MaxDelta ==> 0.0 <= v <= MoveSpeed * SprintMult * MaxDelta
    ensures !k.shift ==> v == MoveSpeed * dt
    ensures k.shift ==> v == MoveSpeed * SprintMult * dt
  {
    MoveSpeed * (if k.shift then SprintMult else 1.0) * dt
  }

  /** The four moves in the source's order: forward for w, back for s,
      left for a, right for d. */
  function Walk(p: Room.Vec3, k: Keys, r: Right, v: real): (q: Room.Vec3)
    ensures q.y == p.y
    ensures !k.w && !k.s && !k.a && !k.d ==> q == p
    ensures k.w == k.s && k.a == k.d ==> q == p
  {
    var p1 := if k.w then Room.Vec3(p.x + r.rz * v, p.y, p.z - r.rx * v) else p;
    var p2 := if k.s then Room.Vec3(p1.x - r.rz * v, p1.y, p1.z + r.rx * v) else p1;
    var p3 := if k.a then Room.Vec3(p2.x - r.rx * v, p2.y, p2.z - r.rz * v) else p2;
    if k.d then Room.Vec3(p3.x + r.rx * v, p3.y, p3.z + r.rz * v) else p3
  }

  /** Each axis moves by at most one forward step and one sideways step. */
  lemma WalkBounded(p: Room.Vec3, k: Keys, r: Right, v: real)
    requires -0.6 <= r.rz * v <= 0.6 && -0.6 <= r.rx * v <= 0.6
    ensures var q := Walk(p, k, r, v);
      -1.2 <= q.x - p.x <= 1.2 && -1.2 <= q.z - p.z <= 1.2
  {
    var fx := r.rz * v;
    var fz := r.rx * v;
    var q := Walk(p, k, r, v);
    var fb := (if k.w then 1.0 else 0.0) - (if k.s then 1.0 else 0.0);
    var lr := (if k.d then 1.0 else 0.0) - (if k.a then 1.0 else 0.0);
    assert q.x == p.x + (if fb == 1.0 then fx else if fb == -1.0 then -fx else 0.0)
                      + (if lr == 1.0 then fz else if lr == -1.0 then -fz else 0.0);
    assert q.z == p.z - (if fb == 1.0 then fz else if fb == -1.0 then -fz else 0.0)
                      + (if lr == 1.0 then fx else if lr == -1.0 then -fx else 0.0);
  }

  /** The walkable area: the room less the pad, at eye height. */
  predicate Walkable(p: Room.Vec3) {
    && RoomPad <= p.x <= RoomWidth - RoomPad
    && RoomPad <= p.z <= RoomLength - RoomPad
    && p.y == EyeHeight
  }

  /** `updateFPMovement` on a camera position: walk, clamp x and z into the
      padded room, and pin y to eye height, whatever the displacement. */
  function MoveCamera(p: Room.Vec3, k: Keys, r: Right, elapsedMs: real): (q: Room.Vec3)
    ensures Walkable(q)
    ensures var w := Walk(p, k, r, Speed(k, Delta(elapsedMs)));
      Walkable(w.(y := EyeHeight)) ==> q == w.(y := EyeHeight)
    ensures var w := Walk(p, k, r, Speed(k, Delta(elapsedMs)));
      && ClampsTo(w.x, RoomPad, RoomWidth - RoomPad, q.x)
      && ClampsTo(w.z, RoomPad, RoomLength - RoomPad, q.z)
  {
    var w := Walk(p, k, r, Speed(k, Delta(elapsedMs)));
    Room.Vec3(Clamp(w.x, RoomPad, RoomWidth - RoomPad), EyeHeight,
              Clamp(w.z, RoomPad, RoomLength - RoomPad))
  }

  /** Standing still inside the walkable area moves nothing. */
  lemma StandingStillStays(p: Room.Vec3, r: Right, elapsedMs: real)
    requires Walkable(p)
    ensures MoveCamera(p, NoKeys, r, elapsedMs) == p
  {
  }

  /** One frame moves the camera by at most 1.2 along each axis: the capped
      step times the sprint speed, once forward or back and once sideways,
      for a unit right vector, and clamping only shortens the move. */
  lemma FrameStepBounded(p: Room.Vec3, k: Keys, r: Right, elapsedMs: real)
    requires Walkable(p) && elapsedMs >= 0.0
    requires -1.0 <= r.rx <= 1.0 && -1.0 <= r.rz <= 1.0
    ensures var q := MoveCamera(p, k, r, elapsedMs);
      -1.2 <= q.x - p.x <= 1.2 && -1.2 <= q.z - p.z <= 1.2
  {
    var v := Speed(k, Delta(elapsedMs));
    assert 0.0 <= v <= 0.6;
    ScaledBound(v, r.rx);
    ScaledBound(v, r.rz);
    WalkBounded(p, k, r, v);
    var w := Walk(p, k, r, v);
    ClampNoFarther(w.x, p.x, RoomPad, RoomWidth - RoomPad, 1.2);
    ClampNoFarther(w.z, p.z, RoomPad, RoomLength - RoomPad, 1.2);
  }

  /** Clamping towards an interval that holds `p` never moves further from `p`. */
  lemma ClampNoFarther(v: real, p: real, lo: real, hi: real, b: real)
    requires lo <= p <= hi && -b <= v - p <= b
    ensures -b <= Clamp(v, lo, hi) - p <= b
  {
  }

  lemma ScaledBound(v: real, c: real)
    requires 0.0 <= v <= 0.6 && -1.0 <= c <= 1.0
    ensures -0.6 <= v * c <= 0.6
    ensures -0.6 <= c * v <= 0.6
  {
    NonNegProduct(v, 1.0 - c);
    NonNegProduct(v, 1.0 + c);
  }

  /** The walk-mode part of the application state: the mode flag, whether
      the pointer is locked, whether the orbit controls are enabled, whether
      the click-to-walk instructions are shown, the key flags, and the
      viewer holding the camera and its transitions. */
  datatype App = App(fpMode: bool, locked: bool, orbitEnabled: bool, instructionsShown: bool,
                     keys: Keys, viewer: Room.Viewer)

  /** The pointer is only ever locked in walk mode, and the orbit controls
      are on exactly outside it. */
  predicate Sane(app: App) {
    (app.locked ==> app.fpMode) && (app.orbitEnabled <==> !app.fpMode)
  }

  const EntryPos: Room.Vec3 := Room.Vec3(2.5, EyeHeight, 4.0)

  /** `enterFPMode`: the camera stands in the middle of the room at eye
      height with a wide field of view. */
  function EnterFP(app: App): (r: App)
    ensures r.fpMode && !r.orbitEnabled && r.instructionsShown
    ensures r.viewer.camera.pos == EntryPos && r.viewer.camera.fov == 75.0
    ensures Walkable(r.viewer.camera.pos)
    ensures r.locked == app.locked && r.keys == app.keys
    ensures Sane(app) ==> Sane(r)
  {
    var cam := app.viewer.camera.(pos := EntryPos, fov := 75.0);
    app.(fpMode := true, orbitEnabled := false, instructionsShown := true,
         viewer := app.viewer.(camera := cam))
  }

  /** `exitFPMode`: the pointer is released, the orbit controls return, the
      field of view narrows and the camera flies to the corner view in
      600 ms. */
  function ExitFP(app: App): (r: App)
    ensures !r.fpMode && !r.locked && r.orbitEnabled && !r.instructionsShown
    ensures Sane(r)
    ensures var v := app.viewer.(camera := app.viewer.camera.(fov := 50.0));
      r.viewer == Room.TransitionToView(v, "corner", Some(600.0))
    ensures Room.Live(app.viewer) ==> Room.Live(r.viewer)
  {
    var v := app.viewer.(camera := app.viewer.camera.(fov := 50.0));
    assert Room.Live(app.viewer) ==> Room.Live(v);
    app.(fpMode := false, locked := false, orbitEnabled := true, instructionsShown := false,
         viewer := Room.TransitionToView(v, "corner", Some(600.0)))
  }

  /** A document click while walking and unlocked, with the instructions
      showing and not on the interface, locks the pointer (when the browser
      grants it). */
  function OnDocumentClick(app: App, overUi: bool, granted: bool): (r: App)
    ensures r.locked <==> app.locked || (app.fpMode && app.instructionsShown && !overUi && granted)
    ensures r.locked && !app.locked ==> !r.instructionsShown
    ensures r.fpMode == app.fpMode && r.viewer == app.viewer && r.keys == app.keys
    ensures Sane(app) ==> Sane(r)
  {
    if app.fpMode && !app.locked && app.instructionsShown && !overUi && granted
    then app.(locked := true, instructionsShown := false)
    else app
  }

  /** The pointer was released (escape, focus loss): in walk mode this
      leaves walk mode. */
  function OnUnlock(app: App): (r: App)
    ensures !r.locked && !r.fpMode
    ensures !app.fpMode ==> r == app.(locked := false)
    ensures Sane(app) ==> Sane(r)
  {
    if app.fpMode then ExitFP(app.(locked := false)) else app.(locked := false)
  }

  /** `updateFPMovement`: only walking with the pointer locked moves the
      camera, and then it ends inside the walkable area. */
  function UpdateFPMovement(app: App, r: Right, elapsedMs: real): (res: App)
    ensures !(app.fpMode && app.locked) ==> res == app
    ensures app.fpMode && app.locked ==> Walkable(res.viewer.camera.pos)
    ensures app.fpMode && app.locked ==>
      res == app.(viewer := app.viewer.(camera := app.viewer.camera.(pos := MoveCamera(app.viewer.camera.pos, app.keys, r, elapsedMs))))
    ensures res.viewer.camera.fov == app.viewer.camera.fov && res.viewer.anims == app.viewer.anims
    ensures res.fpMode == app.fpMode && res.locked == app.locked
  {
    if !app.fpMode || !app.locked then app
    else
      var pos := MoveCamera(app.viewer.camera.pos, app.keys, r, elapsedMs);
      app.(viewer := app.viewer.(camera := app.viewer.camera.(pos := pos)))
  }

  /** What one frame shows: the state after movement, the walls as
      `updateWallVisibility` leaves them, and whether the labels are hidden. */
  datatype Frame = Frame(app: App, walls: Option<Room.Walls>, labelsHidden: bool)

  /** The body of the render loop, less the draw. Outside walk mode the
      damped orbit controls move the camera before the wall test; where they
      leave it, `orbitPos`, is an input, like the right vector. */
  function RenderFrame(app: App, r: Right, elapsedMs: real, orbitPos: Room.Vec3,
                       walls: Option<Room.Walls>, xrPresenting: bool): (f: Frame)
    ensures app.fpMode ==> f.app == UpdateFPMovement(app, r, elapsedMs)
    ensures !app.fpMode ==>
      f.app == app.(viewer := app.viewer.(camera := app.viewer.camera.(pos := orbitPos)))
    ensures f.walls.None? <==> walls.None?
    ensures f.walls == Room.UpdateWallVisibility(walls, f.app.viewer.camera.pos, f.app.fpMode, f.app.locked)
    ensures f.labelsHidden <==> (app.fpMode && app.locked) || xrPresenting
  {
    var moved := UpdateFPMovement(app, r, elapsedMs);
    var orbited := if moved.fpMode then moved
                   else moved.(viewer := moved.viewer.(camera := moved.viewer.camera.(pos := orbitPos)));
    Frame(orbited,
          Room.UpdateWallVisibility(walls, orbited.viewer.camera.pos, orbited.fpMode, orbited.locked),
          Furniture.LabelsHidden(orbited.fpMode, orbited.locked, xrPresenting))
  }

  /** Walking with the pointer locked, every frame shows all walls and the
      ceiling, hides the labels, and keeps the camera in the walkable area. */
  lemma LockedWalkShowsWholeRoom(app: App, r: Right, elapsedMs: real, orbitPos: Room.Vec3,
                                 walls: Room.Walls, xr: bool)
    requires app.fpMode && app.locked
    ensures var f := RenderFrame(app, r, elapsedMs, orbitPos, Some(walls), xr);
      f.walls == Some(Room.AllVisible) && f.labelsHidden && Walkable(f.app.viewer.camera.pos)
  {
  }

  /** Outside walk mode the camera stands where the orbit controls put it,
      and a camera outside the room on any side hides that side's wall. */
  lemma OrbitFrameHidesNearWalls(app: App, r: Right, elapsedMs: real, orbitPos: Room.Vec3,
                                 walls: Room.Walls, xr: bool)
    requires !app.fpMode
    ensures var f := RenderFrame(app, r, elapsedMs, orbitPos, Some(walls), xr);
      var p := orbitPos;
      && f.app.viewer.camera.pos == p
      && (p.z < 0.0 ==> !f.walls.value.south)
      && (p.z > RoomLength ==> !f.walls.value.north)
      && (p.x < 0.0 ==> !f.walls.value.west)
      && (p.x > RoomWidth ==> !f.walls.value.east)
      && (f.labelsHidden <==> xr)
  {
  }
}

=== FILE: config.dfy ===
/** Room geometry constants and the clamp every bound in the application is built on. */
module Config {

  /** Room extent along x, in metres. */
  const RoomWidth: real := 5.0
  /** Room extent along z, in metres. */
  const RoomLength: real := 8.0
  /** Room height along y, in metres. */
  const RoomHeight: real := 2.7

  function Min(a: real, b: real): real { if a <= b then a else b }
  function Max(a: real, b: real): real { if a >= b then a else b }

  /** `Math.max(lo, Math.min(v, hi))`: when the interval is empty (`hi < lo`)
      the lower end wins. */
  function Clamp(v: real, lo: real, hi: real): (r: real)
    ensures lo <= hi ==> lo <= r <= hi
    ensures lo <= v <= hi ==> r == v
    ensures v < lo ==> r == lo
    ensures lo <= hi < v ==> r == hi
    ensures hi < lo ==> r == lo
  {
    Max(lo, Min(v, hi))
  }

  /** `r` is where `Math.max(lo, Math.min(v, hi))` leaves `v`: `v` itself
      inside `[lo, hi]`, the end it lies beyond outside it, and `lo` when the
      interval is empty. */
  predicate ClampsTo(v: real, lo: real, hi: real, r: real) {
    && (lo <= v <= hi ==> r == v)
    && (v < lo ==> r == lo)
    && (lo <= hi < v ==> r == hi)
    && (hi < lo ==> r == lo)
  }

  /** Clamping twice is clamping once. */
  lemma ClampIdempotent(v: real, lo: real, hi: real)
    ensures Clamp(Clamp(v, lo, hi), lo, hi) == Clamp(v, lo, hi)
  {
  }

  /** The one nonlinear fact the interpolation bounds rest on. */
  lemma NonNegProduct(a: real, b: real)
    requires a >= 0.0 && b >= 0.0
    ensures a * b >= 0.0
  {
  }

  /** Linear interpolation `a + (b - a) * e`, as the tweens and `lerpVectors` compute it. */
  function Lerp(a: real, b: real, e: real): (r: real)
    ensures e == 0.0 ==> r == a
    ensures e == 1.0 ==> r == b
    ensures 0.0 <= e <= 1.0 ==> Min(a, b) <= r <= Max(a, b)
  {
    assert 0.0 <= e <= 1.0 ==> Min(a, b) <= a + (b - a) * e <= Max(a, b) by {
      if 0.0 <= e <= 1.0 {
        if a <= b { NonNegProduct(b - a, e); NonNegProduct(b - a, 1.0 - e); }
        else { NonNegProduct(a - b, e); NonNegProduct(a - b, 1.0 - e); }
      }
    }
    a + (b - a) * e
  }
}

=== FILE: furniture.dfy ===
/** The furniture state: the authoritative `roomState` records, the rendered
    mesh positions, the per-item bounded undo history, the ease-out tween that
    moves a mesh and the label hide rule. */
module Furniture {
  import opened Wrappers
  import opened Config

  /** A floor position: meshes and history entries only carry `x` and `z`. */
  datatype Pos = Pos(x: real, z: real)

  /** One `roomState.furniture` record (and one catalog entry: they share the
      same eight fields). */
  datatype Item = Item(id: string, displayName: string, w: real, d: real, h: real,
                       x: real, z: real, color: string)

  /** The furniture catalog exactly as the source declares it. */
  const CatalogAsWritten: seq<Item> := [
    Item("sofa", "Sofa", 2.2, 0.9, 0.85, 1.0, 2.0, "#4A90D9"),
    Item("bed", "Queen Bed", 1.6, 2.0, 0.50, 3.0, 5.0, "#7B68EE"),
    Item("desk", "Desk", 1.2, 0.6, 0.75, 0.5, 6.5, "#8B6914"),
    Item("wardrobe", "Wardrobe", 1.2, 0.6, 2.0, 4.0, 1.0, "#5D4037"),
    Item("coffee_table", "Coffee Table", 1.0, 0.5, 0.45, 1.5, 1.2, "#A0522D")
  ]

  /** The catalog with the sofa and desk start positions moved to the reset
      defaults the application itself advertises (sofa x=1.5, desk x=1.0), so
      every item starts inside the room. */
  const Catalog: seq<Item> := [
    Item("sofa", "Sofa", 2.2, 0.9, 0.85, 1.5, 2.0, "#4A90D9"),
    Item("bed", "Queen Bed", 1.6, 2.0, 0.50, 3.0, 5.0, "#7B68EE"),
    Item("desk", "Desk", 1.2, 0.6, 0.75, 1.0, 6.5, "#8B6914"),
    Item("wardrobe", "Wardrobe", 1.2, 0.6, 2.0, 4.0, 1.0, "#5D4037"),
    Item("coffee_table", "Coffee Table", 1.0, 0.5, 0.45, 1.5, 1.2, "#A0522D")
  ]

  /** Maximum number of snapshots kept per item. */
  const HistoryLimit: nat := 10
  /** Length of a furniture tween, in milliseconds. */
  const TweenDuration: real := 500.0

  /** The authoritative records, the rendered position of every mesh that has
      been loaded, and the undo stack of every catalog id (oldest first). */
  datatype RoomState = RoomState(items: seq<Item>, meshes: map<string, Pos>,
                                 history: map<string, seq<Pos>>)

  /** A running tween: the mesh moves from `start` to `target`. */
  datatype Tween = Tween(start: Pos, target: Pos)

  datatype Moved = Moved(room: RoomState, tween: Option<Tween>)

  datatype Undone = Undone(room: RoomState, ok: bool, tween: Option<Tween>)

  predicate HasId(items: seq<Item>, id: string) {
    exists i :: 0 <= i < |items| && items[i].id == id
  }

  function IdSet(items: seq<Item>): set<string> {
    set i | 0 <= i < |items| :: items[i].id
  }

  predicate UniqueIds(items: seq<Item>) {
    forall i, j :: 0 <= i < j < |items| ==> items[i].id != items[j].id
  }

  /** The footprint of the item at its stored pose lies inside the room. */
  predicate InBounds(it: Item) {
    && it.w / 2.0 <= it.x <= RoomWidth - it.w / 2.0
    && it.d / 2.0 <= it.z <= RoomLength - it.d / 2.0
  }

  /** The state invariant kept by every operation: ids are unique, every id
      has a history of at most ten entries, and only catalog ids have meshes. */
  predicate Valid(room: RoomState) {
    && UniqueIds(room.items)
    && room.history.Keys == IdSet(room.items)
    && room.meshes.Keys <= IdSet(room.items)
    && forall id :: id in room.history ==> |room.history[id]| <= HistoryLimit
  }

  /** `Array.prototype.find` by id, as an index. */
  function FindIndex(items: seq<Item>, id: string): (r: Option<nat>)
    ensures r.Some? ==> r.value < |items| && items[r.value].id == id
    ensures r.Some? ==> forall j :: 0 <= j < r.value ==> items[j].id != id
    ensures r.None? <==> !HasId(items, id)
  {
    if |items| == 0 then None
    else if items[0].id == id then Some(0)
    else
      match FindIndex(items[1..], id)
      case None =>
        assert forall j :: 1 <= j < |items| ==> items[j] == items[1..][j - 1];
        None
      case Some(k) =>
        assert items[k + 1] == items[1..][k];
        assert forall j :: 1 <= j < k + 1 ==> items[j] == items[1..][j - 1];
        Some(k + 1)
  }

  /** Writes `x`/`z` of the first record with this id (`item.x = …; item.z = …`). */
  function SetPose(items: seq<Item>, id: string, p: Pos): (r: seq<Item>)
    ensures |r| == |items|
    ensures forall j :: 0 <= j < |items| ==> r[j].id == items[j].id
    ensures UniqueIds(items) ==> forall j :: 0 <= j < |items| ==>
      r[j] == if items[j].id == id then items[j].(x := p.x, z := p.z) else items[j]
  {
    match FindIndex(items, id)
    case None => items
    case Some(i) => items[i := items[i].(x := p.x, z := p.z)]
  }

  /** The `roomState` built from a catalog: a copy of every entry in catalog
      order, an empty history for every id and no mesh loaded yet. */
  function InitRoom(catalog: seq<Item>): (r: RoomState)
    ensures r.items == catalog
    ensures forall id :: id in r.history <==> HasId(catalog, id)
    ensures forall id :: id in r.history ==> r.history[id] == []
    ensures r.meshes == map[]
    ensures UniqueIds(catalog) ==> Valid(r)
  {
    RoomState(catalog, map[], map id | id in IdSet(catalog) :: [])
  }

  /** The mesh of a catalog entry is placed at the entry's own position when
      its model (or the fallback box) has loaded. */
  function LoadMesh(room: RoomState, entry: Item): (r: RoomState)
    ensures r.items == room.items && r.history == room.history
    ensures entry.id in r.meshes && r.meshes[entry.id] == Pos(entry.x, entry.z)
    ensures forall id :: id != entry.id ==> (id in r.meshes <==> id in room.meshes)
    ensures forall id :: id != entry.id && id in room.meshes ==> r.meshes[id] == room.meshes[id]
    ensures Valid(room) && HasId(room.items, entry.id) ==> Valid(r)
  {
    room.(meshes := room.meshes[entry.id := Pos(entry.x, entry.z)])
  }

  /** The last `HistoryLimit` elements of `s` (all of them when shorter). */
  function Recent(s: seq<Pos>): (r: seq<Pos>)
    ensures |r| == Min(|s| as real, HistoryLimit as real) as int
    ensures r == s[|s| - |r|..]
  {
    if |s| <= HistoryLimit then s else s[|s| - HistoryLimit..]
  }

  /** `history.push(p); if (history.length > 10) history.shift();` */
  function PushBounded(h: seq<Pos>, p: Pos): (r: seq<Pos>)
    ensures |h| <= HistoryLimit ==> r == Recent(h + [p]) && |r| <= HistoryLimit
    ensures |r| > 0 && r[|r| - 1] == p
  {
    var pushed := h + [p];
    if |pushed| > HistoryLimit then pushed[1..] else pushed
  }

  /** Keeping the recent part first and then the recent part again loses nothing more. */
  lemma RecentAbsorbs(s: seq<Pos>, p: Pos)
    ensures Recent(Recent(s) + [p]) == Recent(s + [p])
  {
    if |s| > HistoryLimit {
      assert (s + [p])[|s + [p]| - HistoryLimit..] == (s[|s| - HistoryLimit..] + [p])[1..];
    }
  }

  /** `animateFurniture`: with no mesh nothing changes; otherwise the mesh's
      current rendered position (possibly mid-tween) is pushed onto the
      history and a tween from there to the target starts. */
  function AnimateFurniture(room: RoomState, id: string, newX: real, newZ: real): (r: Moved)
    ensures id !in room.meshes ==> r == Moved(room, None)
    ensures id in room.meshes ==> r.tween == Some(Tween(room.meshes[id], Pos(newX, newZ)))
    ensures r.room.items == room.items && r.room.meshes == room.meshes
    ensures r.room.history.Keys == room.history.Keys
    ensures forall k :: k in room.history && k != id ==> r.room.history[k] == room.history[k]
    ensures id in room.meshes && id in room.history && |room.history[id]| <= HistoryLimit ==>
      r.room.history[id] == Recent(room.history[id] + [room.meshes[id]])
    ensures Valid(room) ==> Valid(r.room)
  {
    if id !in room.meshes then Moved(room, None)
    else
      var p := room.meshes[id];
      var h := if id in room.history
               then room.history[id := PushBounded(room.history[id], p)]
               else room.history;
      Moved(room.(history := h), Some(Tween(p, Pos(newX, newZ))))
  }

  /** The quadratic ease-out `t * (2 - t)`. */
  function EaseOut(t: real): (e: real)
    ensures t == 0.0 ==> e == 0.0
    ensures t == 1.0 ==> e == 1.0
    ensures 0.0 <= t <= 1.0 ==> 0.0 <= e <= 1.0 && t <= e
  {
    assert 0.0 <= t <= 1.0 ==> t * (1.0 - t) >= 0.0 by {
      if 0.0 <= t <= 1.0 { NonNegProduct(t, 1.0 - t); }
    }
    t * (2.0 - t)
  }

  /** The ease-out never moves backwards on [0, 1]. */
  lemma EaseOutMonotone(a: real, b: real)
    requires 0.0 <= a <= b <= 1.0
    ensures EaseOut(a) <= EaseOut(b)
  {
    assert EaseOut(b) - EaseOut(a) == (b - a) * (2.0 - a - b);
    NonNegProduct(b - a, 2.0 - a - b);
  }

  /** Tween progress `Math.min(elapsed / duration, 1)`. */
  function Progress(elapsed: real): (t: real)
    ensures t <= 1.0
    ensures elapsed >= TweenDuration ==> t == 1.0
    ensures elapsed <= TweenDuration ==> t == elapsed / TweenDuration
    ensures 0.0 <= elapsed ==> 0.0 <= t
  {
    Min(elapsed / TweenDuration, 1.0)
  }

  /** The mesh position a tween frame writes `elapsed` milliseconds after it
      started: it starts at `start`, stays between start and target, and
      lands exactly on the target once the duration has passed. */
  function TweenAt(tw: Tween, elapsed: real): (r: Pos)
    ensures elapsed == 0.0 ==> r == tw.start
    ensures elapsed >= TweenDuration ==> r == tw.target
    ensures 0.0 <= elapsed ==>
      && Min(tw.start.x, tw.target.x) <= r.x <= Max(tw.start.x, tw.target.x)
      && Min(tw.start.z, tw.target.z) <= r.z <= Max(tw.start.z, tw.target.z)
  {
    var e := EaseOut(Progress(elapsed));
    Pos(Lerp(tw.start.x, tw.target.x, e), Lerp(tw.start.z, tw.target.z, e))
  }

  /** One animation frame: the captured mesh object is written. */
  function ApplyFrame(room: RoomState, id: string, tw: Tween, elapsed: real): (r: RoomState)
    ensures r.items == room.items && r.history == room.history
    ensures r.meshes.Keys == room.meshes.Keys
    ensures id in room.meshes ==> r.meshes[id] == TweenAt(tw, elapsed)
    ensures forall k :: k in room.meshes && k != id ==> r.meshes[k] == room.meshes[k]
    ensures Valid(room) ==> Valid(r)
  {
    if id in room.meshes then room.(meshes := room.meshes[id := TweenAt(tw, elapsed)])
    else room
  }

  /** `undoLastMove`: an empty or missing history changes nothing and fails;
      otherwise the newest entry is popped and written to the record, and the
      result is true exactly when a mesh exists to animate back. */
  function UndoLastMove(room: RoomState, id: string): (r: Undone)
    ensures (id !in room.history || room.history[id] == []) ==> r == Undone(room, false, None)
    ensures id in room.history && room.history[id] != [] ==>
      var h := room.history[id];
      var prev := h[|h| - 1];
      && r.room.history == room.history[id := h[..|h| - 1]]
      && r.room.items == SetPose(room.items, id, prev)
      && r.room.meshes == room.meshes
      && r.ok == (id in room.meshes)
      && r.tween == (if id in room.meshes then Some(Tween(room.meshes[id], prev)) else None)
    ensures Valid(room) ==> Valid(r.room)
  {
    if id !in room.history || room.history[id] == [] then Undone(room, false, None)
    else
      var h := room.history[id];
      var prev := h[|h| - 1];
      var room' := room.(history := room.history[id := h[..|h| - 1]],
                         items := SetPose(room.items, id, prev));
      if id !in room.meshes then Undone(room', false, None)
      else Undone(room', true, Some(Tween(room.meshes[id], prev)))
  }

  /** One applied action of an instruction: the record's pose is written
      first, then its mesh is animated towards it. */
  function PlaceAndAnimate(room: RoomState, id: string, target: Pos): (r: Moved)
    ensures r.room.items == SetPose(room.items, id, target)
    ensures r.room.meshes == room.meshes
    ensures id !in room.meshes ==> r.room.history == room.history && r.tween == None
    ensures id in room.meshes ==> r.tween == Some(Tween(room.meshes[id], target))
    ensures r.room.history.Keys == room.history.Keys
    ensures forall k :: k in room.history && k != id ==> r.room.history[k] == room.history[k]
    ensures id in room.meshes && id in room.history && |room.history[id]| <= HistoryLimit ==>
      r.room.history[id] == Recent(room.history[id] + [room.meshes[id]])
    ensures Valid(room) ==> Valid(r.room)
  {
    AnimateFurniture(room.(items := SetPose(room.items, id, target)), id, target.x, target.z)
  }

  /** Writing a pose and then writing the record's earlier pose back gives the
      original records. */
  lemma SetPoseRestores(items: seq<Item>, i: nat, target: Pos)
    requires UniqueIds(items) && i < |items|
    ensures SetPose(SetPose(items, items[i].id, target), items[i].id, Pos(items[i].x, items[i].z)) == items
  {
    var id := items[i].id;
    var once := SetPose(items, id, target);
    var twice := SetPose(once, id, Pos(items[i].x, items[i].z));
    assert UniqueIds(once) by {
      forall a, b | 0 <= a < b < |once| ensures once[a].id != once[b].id {
        assert once[a].id == items[a].id && once[b].id == items[b].id;
      }
    }
    forall j | 0 <= j < |items| ensures twice[j] == items[j] {
      if items[j].id == id { assert j == i; }
    }
  }

  /** Placing an item whose mesh has settled on its record, followed by an
      undo, gives back the original records and animates the mesh back to
      where it stood; when the history had room, the history is restored too. */
  lemma UndoRestoresSettledMove(room: RoomState, i: nat, target: Pos)
    requires Valid(room) && i < |room.items|
    requires var it := room.items[i];
      it.id in room.meshes && room.meshes[it.id] == Pos(it.x, it.z)
    ensures var id := room.items[i].id;
      var u := UndoLastMove(PlaceAndAnimate(room, id, target).room, id);
      && u.ok
      && u.room.items == room.items
      && u.tween == Some(Tween(room.meshes[id], room.meshes[id]))
      && (|room.history[id]| < HistoryLimit ==> u.room.history == room.history)
  {
    var it := room.items[i];
    var id := it.id;
    var p := Pos(it.x, it.z);
    assert id in IdSet(room.items);
    var h := room.history[id];
    var moved := PlaceAndAnimate(room, id, target).room;
    UndoAfterPush(moved, id, h, p);
    SetPoseRestores(room.items, i, target);
    RestoreEntry(room.history, moved.history, id);
  }

  /** Undoing right after `p` was pushed onto `h` brings `p` back and, when
      nothing was dropped, leaves `h` as the history. */
  lemma UndoAfterPush(room: RoomState, id: string, h: seq<Pos>, p: Pos)
    requires id in room.history && room.history[id] == Recent(h + [p])
    ensures var u := UndoLastMove(room, id);
      && u.room.items == SetPose(room.items, id, p)
      && u.ok == (id in room.meshes)
      && (id in room.meshes ==> u.tween == Some(Tween(room.meshes[id], p)))
      && (|h| < HistoryLimit ==> u.room.history == room.history[id := h])
  {
    RecentLast(h, p);
  }

  /** Writing back the old value of the one changed key restores the map. */
  lemma RestoreEntry<K, V>(m: map<K, V>, m': map<K, V>, k: K)
    requires k in m && m'.Keys == m.Keys
    requires forall j :: j in m && j != k ==> m'[j] == m[j]
    ensures m'[k := m[k]] == m
  {
  }

  /** The newest entry after a push is the pushed one; when there was room,
      dropping it gives back the earlier history. */
  lemma RecentLast(h: seq<Pos>, p: Pos)
    ensures var r := Recent(h + [p]);
      && |r| > 0 && r[|r| - 1] == p
      && (|h| < HistoryLimit ==> r[..|r| - 1] == h)
  {
    if |h| < HistoryLimit {
      assert (h + [p])[..|h|] == h;
    }
  }

  /** A move followed by letting its tween run to the end. */
  function MoveAndSettle(room: RoomState, id: string, target: Pos): (r: RoomState)
    requires id in room.meshes
    ensures id in r.meshes && r.meshes[id] == target
    ensures r.items == room.items && r.meshes.Keys == room.meshes.Keys
    ensures r.history.Keys == room.history.Keys
    ensures Valid(room) ==> Valid(r)
  {
    var moved := AnimateFurniture(room, id, target.x, target.z);
    ApplyFrame(moved.room, id, moved.tween.value, TweenDuration)
  }

  /** Applies settled moves one after another. */
  function MoveAndSettleAll(room: RoomState, id: string, targets: seq<Pos>): (r: RoomState)
    requires id in room.meshes
    ensures id in r.meshes && r.meshes.Keys == room.meshes.Keys
    ensures r.history.Keys == room.history.Keys
    ensures Valid(room) ==> Valid(r)
    decreases |targets|
  {
    if targets == [] then room
    else MoveAndSettleAll(MoveAndSettle(room, id, targets[0]), id, targets[1..])
  }

  lemma MoveAndSettleHistory(room: RoomState, id: string, target: Pos)
    requires id in room.meshes && id in room.history
    requires |room.history[id]| <= HistoryLimit
    ensures var r := MoveAndSettle(room, id, target);
      id in r.history && r.history[id] == Recent(room.history[id] + [room.meshes[id]])
  {
  }

  /** After any number of settled moves the history holds exactly the most
      recent ten pre-move positions, oldest first: the position before the
      first move and every target except the last. */
  lemma {:induction false} HistoryKeepsRecentPositions(room: RoomState, id: string, targets: seq<Pos>)
    requires id in room.meshes && id in room.history
    requires |room.history[id]| <= HistoryLimit
    requires |targets| > 0
    ensures var r := MoveAndSettleAll(room, id, targets);
      id in r.history
      && r.history[id] == Recent(room.history[id] + [room.meshes[id]] + targets[..|targets| - 1])
    decreases |targets|
  {
    var pre := room.history[id] + [room.meshes[id]];
    var r1 := MoveAndSettle(room, id, targets[0]);
    MoveAndSettleHistory(room, id, targets[0]);
    if |targets| == 1 {
      assert MoveAndSettleAll(room, id, targets) == r1;
      assert pre + targets[..0] == pre;
    } else {
      var rest := targets[1..];
      assert MoveAndSettleAll(room, id, targets) == MoveAndSettleAll(r1, id, rest);
      HistoryKeepsRecentPositions(r1, id, rest);
      RecentShift(pre, targets);
    }
  }

  /** Moving the first target out of the list into the history. */
  lemma RecentShift(pre: seq<Pos>, targets: seq<Pos>)
    requires |targets| > 1
    ensures Recent(Recent(pre) + [targets[0]] + targets[1..][..|targets| - 2])
         == Recent(pre + targets[..|targets| - 1])
  {
    ShiftSplit(pre, targets);
    RecentTail(pre, targets[0], targets[1..][..|targets| - 2]);
  }

  lemma ShiftSplit<T>(pre: seq<T>, t: seq<T>)
    requires |t| > 1
    ensures pre + t[..|t| - 1] == pre + [t[0]] + t[1..][..|t| - 2]
  {
    assert t[..|t| - 1] == [t[0]] + t[1..][..|t| - 2];
  }

  /** `Recent` may be applied early: only the tail matters. */
  lemma {:induction false} RecentTail(s: seq<Pos>, p: Pos, rest: seq<Pos>)
    ensures Recent(Recent(s) + [p] + rest) == Recent(s + [p] + rest)
    decreases |rest|
  {
    if rest == [] {
      assert Recent(s) + [p] + rest == Recent(s) + [p];
      assert s + [p] + rest == s + [p];
      RecentAbsorbs(s, p);
    } else {
      var last := rest[|rest| - 1];
      var init := rest[..|rest| - 1];
      RecentTail(s, p, init);
      assert Recent(s) + [p] + rest == (Recent(s) + [p] + init) + [last];
      assert s + [p] + rest == (s + [p] + init) + [last];
      RecentAbsorbs(Recent(s) + [p] + init, last);
      RecentAbsorbs(s + [p] + init, last);
    }
  }

  /** Whether the labels are hidden this frame: in locked first-person mode
      and while an XR session is presenting. */
  predicate LabelsHidden(fpMode: bool, fpLocked: bool, xrPresenting: bool): (b: bool)
    ensures xrPresenting ==> b
    ensures !fpMode && !xrPresenting ==> !b
    ensures !fpLocked && !xrPresenting ==> !b
  {
    (fpMode && fpLocked) || xrPresenting
  }

  datatype LabelStyle = LabelUntouched | LabelHidden | LabelShown

  /** What one frame of `updateLabels` does to an item's label: nothing when
      its mesh has not loaded; hidden when labels are hidden or the projected
      point is behind the camera; shown otherwise. */
  function LabelDisplay(room: RoomState, id: string, fpMode: bool, fpLocked: bool,
                        xrPresenting: bool, projectedDepth: real): (r: LabelStyle)
    ensures r == LabelUntouched <==> id !in room.meshes
    ensures r == LabelShown ==> !fpLocked || !fpMode
    ensures r == LabelShown ==> !xrPresenting && projectedDepth <= 1.0
    ensures id in room.meshes && !LabelsHidden(fpMode, fpLocked, xrPresenting) && projectedDepth <= 1.0 ==>
      r == LabelShown
  {
    if id !in room.meshes then LabelUntouched
    else if LabelsHidden(fpMode, fpLocked, xrPresenting) then LabelHidden
    else if projectedDepth > 1.0 then LabelHidden
    else LabelShown
  }

  /** The hide rule of `updateLabels`: a loaded item's label is hidden
      exactly in locked walk mode, while XR presents, or when its point
      projects behind the camera. */
  lemma LabelHiddenExactly(room: RoomState, id: string, fpMode: bool, fpLocked: bool,
                           xrPresenting: bool, projectedDepth: real)
    requires id in room.meshes
    ensures LabelDisplay(room, id, fpMode, fpLocked, xrPresenting, projectedDepth) == LabelHidden
      <==> (fpMode && fpLocked) || xrPresenting || projectedDepth > 1.0
  {
  }

  /** The catalog as written starts the sofa and the desk partly inside the
      west wall. */
  lemma CatalogAsWrittenOutOfBounds()
    ensures CatalogAsWritten[0].id == "sofa" && !InBounds(CatalogAsWritten[0])
    ensures CatalogAsWritten[2].id == "desk" && !InBounds(CatalogAsWritten[2])
  {
  }

  /** Every item of the corrected catalog starts inside the room, so the
      initial state meets the room-bound invariant. */
  lemma CatalogInBounds()
    ensures UniqueIds(Catalog)
    ensures forall i :: 0 <= i < |Catalog| ==> InBounds(Catalog[i])
    ensures Valid(InitRoom(Catalog))
  {
  }
}

=== FILE: furniture_interact.dfy ===
/** Clicking furniture to attach a reference photo, and the hover highlight:
    the per-item reference-image store kept in insertion order, the data-URL
    split, the parts handed to the renderer, the click-versus-drag test, the
    one-shot pending item and the single hovered item. */
module Interact {
  import opened Wrappers
  import opened Text
  import opened Config

  /** One stored reference photo; `base64` is absent when the data URL has
      no comma. */
  datatype RefImage = RefImage(base64: Option<string>, mime: string, dataUrl: string)
  datatype Entry = Entry(id: string, image: RefImage)

  /** The `refImages` object: its entries in key order. */
  type Store = seq<Entry>

  function Ids(s: Store): (ids: seq<string>)
    ensures |ids| == |s| && forall i :: 0 <= i < |s| ==> ids[i] == s[i].id
  {
    seq(|s|, i requires 0 <= i < |s| => s[i].id)
  }

  /** No id is stored twice. */
  predicate Keyed(s: Store) {
    forall i, j :: 0 <= i < j < |s| ==> s[i].id != s[j].id
  }

  function Lookup(s: Store, id: string): (r: Option<RefImage>)
    ensures r.None? <==> id !in Ids(s)
    ensures r.Some? ==> Entry(id, r.value) in s
    decreases |s|
  {
    if s == [] then None
    else if s[0].id == id then Some(s[0].image)
    else
      assert Ids(s) == [s[0].id] + Ids(s[1..]);
      Lookup(s[1..], id)
  }

  /** `refImages[id] = image`: an existing key keeps its place and takes the
      new image; a new key goes last. */
  function Put(s: Store, id: string, image: RefImage): (r: Store)
    ensures id in Ids(s) ==> Ids(r) == Ids(s)
    ensures id !in Ids(s) ==> Ids(r) == Ids(s) + [id]
    decreases |s|
  {
    if s == [] then
      IdsCons(Entry(id, image), []);
      [Entry(id, image)]
    else
      IdsCons(s[0], s[1..]);
      assert [s[0]] + s[1..] == s;
      if s[0].id == id then
        IdsCons(Entry(id, image), s[1..]);
        [Entry(id, image)] + s[1..]
      else
        var rest := Put(s[1..], id, image);
        IdsCons(s[0], rest);
        [s[0]] + rest
  }

  lemma IdsCons(e: Entry, rest: Store)
    ensures Ids([e] + rest) == [e.id] + Ids(rest)
  {
  }

  /** Storing keeps every key unique. */
  lemma {:induction false} PutKeyed(s: Store, id: string, image: RefImage)
    requires Keyed(s)
    ensures Keyed(Put(s, id, image))
    decreases |s|
  {
    if s != [] {
      KeyedTail(s);
      if s[0].id == id {
        KeyedCons(Entry(id, image), s[1..]);
      } else {
        PutKeyed(s[1..], id, image);
        KeyedCons(s[0], Put(s[1..], id, image));
      }
    }
  }

  /** The tail of a keyed store is keyed and does not hold the head's key. */
  lemma KeyedTail(s: Store)
    requires Keyed(s) && s != []
    ensures Keyed(s[1..]) && s[0].id !in Ids(s[1..])
  {
    forall i, j | 0 <= i < j < |s[1..]| ensures s[1..][i].id != s[1..][j].id {
      assert s[1..][i] == s[i + 1] && s[1..][j] == s[j + 1];
    }
    forall k | 0 <= k < |s[1..]| ensures Ids(s[1..])[k] != s[0].id {
      assert s[1..][k] == s[k + 1];
    }
  }

  /** After a store the id maps to the new image and every other id is as
      before. */
  lemma {:induction false} PutThenLookup(s: Store, id: string, image: RefImage, other: string)
    ensures Lookup(Put(s, id, image), id) == Some(image)
    ensures other != id ==> Lookup(Put(s, id, image), other) == Lookup(s, other)
    decreases |s|
  {
    if s != [] && s[0].id != id {
      PutThenLookup(s[1..], id, image, other);
    }
  }

  /** `delete refImages[id]`: only that id's entry goes, the rest keep their
      order. */
  function Remove(s: Store, id: string): (r: Store)
    ensures id !in Ids(r)
    ensures forall k :: k in Ids(r) <==> k in Ids(s) && k != id
    ensures Keyed(s) ==> Keyed(r)
    decreases |s|
  {
    if s == [] then []
    else
      var rest := Remove(s[1..], id);
      RemoveStep(s, id, rest);
      if s[0].id == id then rest else [s[0]] + rest
  }

  /** One step of `Remove`: the head is dropped when it carries `id` and put
      back in front otherwise. */
  lemma RemoveStep(s: Store, id: string, rest: Store)
    requires s != []
    requires id !in Ids(rest)
    requires forall k :: k in Ids(rest) <==> k in Ids(s[1..]) && k != id
    requires Keyed(s[1..]) ==> Keyed(rest)
    ensures var r := if s[0].id == id then rest else [s[0]] + rest;
      && id !in Ids(r)
      && (forall k :: k in Ids(r) <==> k in Ids(s) && k != id)
      && (Keyed(s) ==> Keyed(r))
  {
    assert Ids(s) == [s[0].id] + Ids(s[1..]);
    if s[0].id != id {
      KeepHead(s, id, rest);
    } else if Keyed(s) {
      KeyedTail(s);
    }
  }

  /** The kept head in front of the rest: keys and uniqueness. */
  lemma KeepHead(s: Store, id: string, rest: Store)
    requires s != [] && s[0].id != id
    requires id !in Ids(rest)
    requires forall k :: k in Ids(rest) <==> k in Ids(s[1..]) && k != id
    requires Keyed(s[1..]) ==> Keyed(rest)
    ensures id !in Ids([s[0]] + rest)
    ensures forall k :: k in Ids([s[0]] + rest) <==> k in Ids(s) && k != id
    ensures Keyed(s) ==> Keyed([s[0]] + rest)
  {
    KeepHeadIds(s, id, rest);
    if Keyed(s) {
      KeyedTail(s);
      KeepHeadKeyed(s, rest);
    }
  }

  lemma KeepHeadIds(s: Store, id: string, rest: Store)
    requires s != [] && s[0].id != id
    requires id !in Ids(rest)
    requires forall k :: k in Ids(rest) <==> k in Ids(s[1..]) && k != id
    ensures id !in Ids([s[0]] + rest)
    ensures forall k :: k in Ids([s[0]] + rest) <==> k in Ids(s) && k != id
  {
    assert Ids(s) == [s[0].id] + Ids(s[1..]);
    IdsCons(s[0], rest);
  }

  lemma KeepHeadKeyed(s: Store, rest: Store)
    requires s != [] && Keyed(rest) && s[0].id !in Ids(s[1..])
    requires forall k :: k in Ids(rest) ==> k in Ids(s[1..])
    ensures Keyed([s[0]] + rest)
  {
    KeyedCons(s[0], rest);
  }

  /** A key not among the rest's keeps the store keyed when put in front. */
  lemma KeyedCons(e: Entry, rest: Store)
    requires Keyed(rest) && e.id !in Ids(rest)
    ensures Keyed([e] + rest)
  {
    forall i, j | 0 <= i < j < |[e] + rest|
      ensures ([e] + rest)[i].id != ([e] + rest)[j].id
    {
      if i == 0 { assert ([e] + rest)[j].id == Ids(rest)[j - 1]; }
    }
  }

  lemma {:induction false} RemoveThenLookup(s: Store, id: string, other: string)
    ensures Lookup(Remove(s, id), id) == None
    ensures other != id ==> Lookup(Remove(s, id), other) == Lookup(s, other)
    decreases |s|
  {
    if s != [] {
      RemoveThenLookup(s[1..], id, other);
    }
  }

  /** The lazy `(.*?);` of the mime pattern: the characters up to the first
      `;`, provided no line terminator comes before it. */
  function UpToSemicolon(s: string): (r: Option<string>)
    ensures r.Some? ==> |r.value| < |s| && s[..|r.value|] == r.value && s[|r.value|] == ';'
    ensures r.Some? ==> forall c :: c in r.value ==> c != ';' && !IsLineTerminator(c)
    ensures (forall c :: c in s ==> !IsLineTerminator(c)) && ';' in s ==> r.Some?
    ensures forall i :: 0 <= i < |s| && s[i] == ';' && ClearBefore(s, i) ==> r == Some(s[..i])
    decreases |s|
  {
    if s == [] then None
    else if s[0] == ';' then Some([])
    else if IsLineTerminator(s[0]) then None
    else
      var rest := UpToSemicolon(s[1..]);
      UpToSemicolonStep(s, rest);
      match rest
      case None => None
      case Some(t) => Some([s[0]] + t)
  }

  /** What `UpToSemicolon` knows of the tail carries over to the whole string
      once a plain first character is put back in front. */
  lemma UpToSemicolonStep(s: string, rest: Option<string>)
    requires s != [] && s[0] != ';' && !IsLineTerminator(s[0])
    requires rest.Some? ==> |rest.value| < |s| - 1 && s[1..][..|rest.value|] == rest.value && s[1..][|rest.value|] == ';'
    requires rest.Some? ==> forall c :: c in rest.value ==> c != ';' && !IsLineTerminator(c)
    requires (forall c :: c in s[1..] ==> !IsLineTerminator(c)) && ';' in s[1..] ==> rest.Some?
    requires forall i :: 0 <= i < |s| - 1 && s[1..][i] == ';' && ClearBefore(s[1..], i) ==> rest == Some(s[1..][..i])
    ensures var r := if rest.Some? then Some([s[0]] + rest.value) else None;
      && (r.Some? ==> |r.value| < |s| && s[..|r.value|] == r.value && s[|r.value|] == ';')
      && (r.Some? ==> forall c :: c in r.value ==> c != ';' && !IsLineTerminator(c))
      && ((forall c :: c in s ==> !IsLineTerminator(c)) && ';' in s ==> r.Some?)
      && (forall i :: 0 <= i < |s| && s[i] == ';' && ClearBefore(s, i) ==> r == Some(s[..i]))
  {
    assert forall c :: c in s[1..] ==> c in s;
    assert ';' in s ==> ';' in s[1..];
    if rest.Some? {
      assert s[..|rest.value| + 1] == [s[0]] + rest.value;
    }
    forall i | 0 <= i < |s| && s[i] == ';' && ClearBefore(s, i)
      ensures rest == Some(s[1..][..i - 1]) && s[..i] == [s[0]] + s[1..][..i - 1]
    {
      assert forall j :: 0 <= j < i - 1 ==> s[1..][j] == s[j + 1];
      assert ClearBefore(s[1..], i - 1);
    }
  }

  /** No `;` and no line terminator occurs before index `i`. */
  predicate ClearBefore(s: string, i: nat)
    requires i <= |s|
  {
    forall j :: 0 <= j < i ==> s[j] != ';' && !IsLineTerminator(s[j])
  }

  /** `data:` sits at `i` in `h` and the lazy group after it yields `r`. */
  predicate MimeAt(h: string, i: nat, r: Option<string>) {
    i + 5 <= |h| && h[i..i + 5] == "data:" && UpToSemicolon(h[i + 5..]) == r
  }

  /** A match in the tail of the header is a match one place further on in
      the header itself. */
  lemma MimeAtShift(h: string, r: Option<string>)
    requires |h| >= 1
    requires r.Some? ==> exists j: nat :: MimeAt(h[1..], j, r)
    ensures r.Some? ==> exists i: nat :: MimeAt(h, i, r)
  {
    if r.Some? {
      var j: nat :| MimeAt(h[1..], j, r);
      assert h[j + 1..j + 6] == h[1..][j..j + 5];
      assert h[j + 6..] == h[1..][j + 5..];
      assert MimeAt(h, j + 1, r);
    }
  }

  /** `header.match(/data:(.*?);/)[1]`: the first position where `data:` is
      followed by a match of the lazy group. */
  function MatchMime(h: string): (r: Option<string>)
    ensures StartsWith(h, "data:") && UpToSemicolon(h[5..]).Some? ==> r == UpToSemicolon(h[5..])
    ensures r.Some? ==> forall c :: c in r.value ==> c != ';' && !IsLineTerminator(c)
    ensures r.Some? ==> exists i: nat :: MimeAt(h, i, r)
    decreases |h|
  {
    if |h| < 5 then None
    else if h[..5] == "data:" && UpToSemicolon(h[5..]).Some? then
      assert MimeAt(h, 0, UpToSemicolon(h[5..]));
      UpToSemicolon(h[5..])
    else
      var r := MatchMime(h[1..]);
      MimeAtShift(h, r);
      r
  }

  /** The text before the first comma, and what follows it if there is one. */
  function SplitComma(s: string): (r: (string, Option<string>))
    ensures ',' !in r.0
    ensures r.1.None? <==> ',' !in s
    ensures r.1.Some? ==> s == r.0 + [','] + r.1.value
    ensures r.1.None? ==> r.0 == s
    decreases |s|
  {
    if s == [] then ([], None)
    else if s[0] == ',' then ([], Some(s[1..]))
    else
      var (h, t) := SplitComma(s[1..]);
      assert t.Some? ==> s == [s[0]] + h + [','] + t.value;
      ([s[0]] + h, t)
  }

  /** The loaded file's data URL as the `onload` handler splits it: the
      header before the first comma, the second comma-separated field as the
      payload, the mime from the header. `None` when the header has no mime,
      where the handler throws and stores nothing. */
  function ParseDataUrl(url: string): (r: Option<RefImage>)
    ensures r.Some? ==> r.value.dataUrl == url
    ensures r.None? <==> MatchMime(SplitComma(url).0).None?
  {
    var (header, rest) := SplitComma(url);
    var base64 := match rest
      case None => None
      case Some(t) => Some(SplitComma(t).0);
    match MatchMime(header)
    case None => None
    case Some(mime) => Some(RefImage(base64, mime, url))
  }

  /** What a file reader produces, `data:<mime>;base64,<payload>`, parses
      back into the mime and the payload it was built from. */
  lemma DataUrlRoundTrip(mime: string, payload: string)
    requires forall c :: c in mime ==> c != ';' && c != ',' && !IsLineTerminator(c)
    requires ',' !in payload
    ensures var url := "data:" + mime + ";base64," + payload;
      ParseDataUrl(url) == Some(RefImage(Some(payload), mime, url))
  {
    var url := "data:" + mime + ";base64," + payload;
    var header := "data:" + mime + ";base64";
    assert url == header + [','] + payload;
    assert ',' !in header by {
      assert forall c :: c in header ==> c in "data:" || c in mime || c in ";base64";
    }
    SplitCommaOf(header, payload);
    SplitCommaOf(payload, []);
    MimeOfHeader(mime);
  }

  lemma MimeOfHeader(mime: string)
    requires forall c :: c in mime ==> c != ';' && !IsLineTerminator(c)
    ensures MatchMime("data:" + mime + ";base64") == Some(mime)
  {
    var header := "data:" + mime + ";base64";
    assert header[5..] == mime + ";" + "base64";
    UpToSemicolonOf(mime, "base64");
    assert header[..5] == "data:";
  }

  lemma {:induction false} SplitCommaOf(a: string, b: string)
    requires ',' !in a
    ensures SplitComma(a + [','] + b) == (a, Some(b))
    ensures SplitComma(a) == (a, None)
    decreases |a|
  {
    if a != [] {
      assert (a + [','] + b)[1..] == a[1..] + [','] + b;
      SplitCommaOf(a[1..], b);
      assert [a[0]] + a[1..] == a;
    } else {
      assert ([] + [','] + b)[1..] == b;
    }
  }

  lemma {:induction false} UpToSemicolonOf(a: string, b: string)
    requires forall c :: c in a ==> c != ';' && !IsLineTerminator(c)
    ensures UpToSemicolon(a + ";" + b) == Some(a)
    decreases |a|
  {
    var s := a + ";" + b;
    if a == [] {
      assert s[0] == ';';
    } else {
      assert s[0] == a[0] && a[0] in a;
      assert s[1..] == a[1..] + ";" + b;
      assert forall c :: c in a[1..] ==> c in a;
      UpToSemicolonOf(a[1..], b);
      assert UpToSemicolon(s) == Some([a[0]] + a[1..]);
      assert [a[0]] + a[1..] == a;
    }
  }

  /** `FURNITURE_LABELS[id] || id`. */
  function Label(id: string): (r: string)
    ensures id !in {"sofa", "bed", "desk", "wardrobe", "coffee_table"} ==> r == id
  {
    match id
    case "sofa" => "Sofa"
    case "bed" => "Bed"
    case "desk" => "Desk"
    case "wardrobe" => "Wardrobe"
    case "coffee_table" => "Coffee Table"
    case _ => id
  }

  datatype Part = InlineData(mimeType: string, data: Option<string>)
  datatype RefParts = RefParts(extraPrompt: string, parts: seq<Part>)

  const PromptHead := "IMPORTANT: I have attached reference photos for specific furniture. The references include: "
  const PromptTail := ". Make each piece of furniture in the rendered image match the style, color, material, and overall look of its corresponding reference photo as closely as possible."

  function Description(id: string): string {
    "a reference photo for the " + Label(id)
  }

  function Descriptions(s: Store): (ds: seq<string>)
    ensures |ds| == |s|
  {
    seq(|s|, i requires 0 <= i < |s| => Description(s[i].id))
  }

  /** `getFurnitureRefParts`: nothing when no photo is stored; otherwise
      one inline part per stored photo, in key order, and a prompt that
      lists the photos in the same order. */
  function GetFurnitureRefParts(s: Store): (r: Option<RefParts>)
    ensures r.None? <==> s == []
    ensures r.Some? ==> |r.value.parts| == |s|
    ensures r.Some? ==> forall i :: 0 <= i < |s| ==>
      r.value.parts[i] == InlineData(s[i].image.mime, s[i].image.base64)
    ensures r.Some? ==> StartsWith(r.value.extraPrompt, PromptHead) && EndsWith(r.value.extraPrompt, PromptTail)
  {
    if s == [] then None
    else
      var prompt := PromptHead + Join(Descriptions(s), "; ") + PromptTail;
      assert prompt[..|PromptHead|] == PromptHead;
      assert prompt[|prompt| - |PromptTail|..] == PromptTail;
      Some(RefParts(prompt, seq(|s|, i requires 0 <= i < |s| => InlineData(s[i].image.mime, s[i].image.base64))))
  }

  /** Where the prompt names the `i`-th stored photo by its label. */
  function PhotoMention(s: Store, i: nat): (k: nat)
    requires i < |s|
    ensures k + |Description(s[i].id)| <= |GetFurnitureRefParts(s).value.extraPrompt|
    ensures GetFurnitureRefParts(s).value.extraPrompt[k..k + |Description(s[i].id)|] == Description(s[i].id)
  {
    var ds := Descriptions(s);
    assert GetFurnitureRefParts(s).value.extraPrompt == PromptHead + Join(ds, "; ") + PromptTail;
    assert ds[i] == Description(s[i].id);
    Mention(PromptHead, ds, "; ", PromptTail, i)
  }

  /** Where the `i`-th part sits in `head + Join(parts, sep) + tail`. */
  function Mention(head: string, parts: seq<string>, sep: string, tail: string, i: nat): (k: nat)
    requires i < |parts|
    ensures k + |parts[i]| <= |head + Join(parts, sep) + tail|
    ensures (head + Join(parts, sep) + tail)[k..k + |parts[i]|] == parts[i]
  {
    var j := JoinOffset(parts, sep, i);
    var m := Join(parts, sep);
    assert (head + m + tail)[|head| + j..|head| + j + |parts[i]|] == m[j..j + |parts[i]|];
    |head| + j
  }

  /** A pointer position in screen pixels. */
  datatype Point = Point(x: real, y: real)

  const DragThreshold: real := 5.0

  /** A release is a click when it lies within 5 px of the press
      (`sqrt(dx*dx + dy*dy) > 5` rejects it; both sides are non-negative, so
      the squares compare the same way). */
  predicate IsClick(down: Point, up: Point): (b: bool)
    ensures b ==> -DragThreshold <= up.x - down.x <= DragThreshold && -DragThreshold <= up.y - down.y <= DragThreshold
    ensures -3.0 <= up.x - down.x <= 3.0 && -3.0 <= up.y - down.y <= 3.0 ==> b
  {
    var dx := up.x - down.x;
    var dy := up.y - down.y;
    SquareFacts(dx);
    SquareFacts(dy);
    dx * dx + dy * dy <= DragThreshold * DragThreshold
  }

  /** Small jitter is still a click; a move of more than 5 px along either
      axis is a drag. */
  lemma ClickThreshold(down: Point, up: Point)
    ensures -3.0 <= up.x - down.x <= 3.0 && -3.0 <= up.y - down.y <= 3.0 ==> IsClick(down, up)
    ensures (up.x - down.x > 5.0 || down.x - up.x > 5.0 || up.y - down.y > 5.0 || down.y - up.y > 5.0)
      ==> !IsClick(down, up)
  {
    var dx := up.x - down.x;
    var dy := up.y - down.y;
    SquareFacts(dx);
    SquareFacts(dy);
    assert IsClick(down, up) <==> dx * dx + dy * dy <= 25.0;
  }

  lemma SquareFacts(d: real)
    ensures d * d >= 0.0
    ensures -3.0 <= d <= 3.0 ==> d * d <= 9.0
    ensures d > 5.0 || d < -5.0 ==> d * d > 25.0
  {
    if d >= 0.0 { NonNegProduct(d, d); } else { NonNegProduct(-d, -d); assert (-d) * (-d) == d * d; }
    if -3.0 <= d <= 3.0 {
      NonNegProduct(3.0 - d, 3.0 + d);
      assert (3.0 - d) * (3.0 + d) == 9.0 - d * d;
    }
    if d > 5.0 {
      NonNegProduct(d - 5.0, d + 5.0);
      assert (d - 5.0) * (d + 5.0) == d * d - 25.0;
      assert d * d != 25.0 by { NonNegProduct(d - 5.0, d - 5.0); assert (d - 5.0) * (d - 5.0) == d * d - 10.0 * d + 25.0; }
    } else if d < -5.0 {
      NonNegProduct(-d - 5.0, -d + 5.0);
      assert (-d - 5.0) * (-d + 5.0) == d * d - 25.0;
      assert d * d != 25.0 by { NonNegProduct(-d - 5.0, -d - 5.0); assert (-d - 5.0) * (-d - 5.0) == d * d + 10.0 * d + 25.0; }
    }
  }

  /** The interaction state: the press position, the item waiting for a
      file, the hovered item, the items drawn highlighted, and the stored
      photos. */
  datatype Interaction = Interaction(pointerDown: Option<Point>, pending: Option<string>,
                                     hovered: Option<string>, lit: set<string>, refs: Store)

  /** The hover invariant: exactly the hovered item is highlighted, and the
      store has one entry per id. */
  predicate Good(st: Interaction) {
    st.lit == (if Truthy(st.hovered) then {st.hovered.value} else {}) && Keyed(st.refs)
  }

  /** JavaScript truthiness of an optional id: present and not empty. */
  predicate Truthy(o: Option<string>) {
    o.Some? && o.value != ""
  }

  function Init(): (st: Interaction)
    ensures Good(st)
  {
    Interaction(None, None, None, {}, [])
  }

  function OnPointerDown(st: Interaction, p: Point): (r: Interaction)
    ensures r.pointerDown == Some(p)
    ensures r.(pointerDown := st.pointerDown) == st
    ensures Good(st) ==> Good(r)
  {
    st.(pointerDown := Some(p))
  }

  /** A release: the new state and whether the file chooser was opened. */
  datatype Released = Released(state: Interaction, chooserOpened: bool)

  /** `onPointerUp`. `hit` is the furniture id of the nearest mesh under the
      pointer, `None` when nothing furniture-like is hit. */
  function OnPointerUp(st: Interaction, p: Point, fpMode: bool, overUi: bool, hit: Option<string>): (r: Released)
    ensures st.pointerDown.None? ==> r == Released(st, false)
    ensures st.pointerDown.Some? ==> r.state.pointerDown.None?
    ensures r.chooserOpened <==>
      st.pointerDown.Some? && !fpMode && !overUi && IsClick(st.pointerDown.value, p) && Truthy(hit)
    ensures r.chooserOpened ==> r.state.pending == hit
    ensures !r.chooserOpened ==> r.state.pending == st.pending
    ensures r.state.hovered == st.hovered && r.state.lit == st.lit && r.state.refs == st.refs
  {
    match st.pointerDown
    case None => Released(st, false)
    case Some(down) =>
      var cleared := st.(pointerDown := None);
      if fpMode || overUi || !IsClick(down, p) then Released(cleared, false)
      else if Truthy(hit) then Released(cleared.(pending := hit), true)
      else Released(cleared, false)
  }

  /** The file input's change: the new state and the item whose file is
      being read, if any. */
  datatype Chosen = Chosen(state: Interaction, reading: Option<string>)

  /** A file chosen with an item pending starts a read for that item and
      consumes the pending id; anything else is ignored. */
  function OnFileChange(st: Interaction, hasFile: bool): (r: Chosen)
    ensures !hasFile || !Truthy(st.pending) ==> r == Chosen(st, None)
    ensures r.reading.Some? ==> r.reading == st.pending && r.state == st.(pending := None)
  {
    if !hasFile || !Truthy(st.pending) then Chosen(st, None)
    else Chosen(st.(pending := None), st.pending)
  }

  /** The read finished: a data URL with a mime is stored for the item. */
  function OnFileLoaded(st: Interaction, id: string, url: string): (r: Interaction)
    ensures ParseDataUrl(url).None? ==> r == st
    ensures ParseDataUrl(url).Some? ==> Lookup(r.refs, id) == ParseDataUrl(url)
    ensures forall k :: k != id ==> Lookup(r.refs, k) == Lookup(st.refs, k)
    ensures r.(refs := st.refs) == st
    ensures Good(st) ==> Good(r)
  {
    match ParseDataUrl(url)
    case None => st
    case Some(img) =>
      PutThenLookup(st.refs, id, img, id);
      forall k | k != id ensures Lookup(Put(st.refs, id, img), k) == Lookup(st.refs, k) {
        PutThenLookup(st.refs, id, img, k);
      }
      assert Keyed(st.refs) ==> Keyed(Put(st.refs, id, img)) by {
        if Keyed(st.refs) { PutKeyed(st.refs, id, img); }
      }
      st.(refs := Put(st.refs, id, img))
  }

  /** The remove button on an item's card. */
  function OnRemove(st: Interaction, id: string): (r: Interaction)
    ensures Lookup(r.refs, id).None?
    ensures forall k :: k != id ==> Lookup(r.refs, k) == Lookup(st.refs, k)
    ensures r.(refs := st.refs) == st
    ensures Good(st) ==> Good(r)
  {
    RemoveThenLookup(st.refs, id, id);
    forall k | k != id ensures Lookup(Remove(st.refs, id), k) == Lookup(st.refs, k) {
      RemoveThenLookup(st.refs, id, k);
    }
    st.(refs := Remove(st.refs, id))
  }

  /** Stops hovering, un-highlighting the hovered item. */
  function ClearHover(st: Interaction): Interaction {
    if Truthy(st.hovered) then st.(hovered := None, lit := st.lit - {st.hovered.value}) else st
  }

  /** `onPointerMove`. In first-person mode, over the interface or with no
      furniture meshes, the hover is cleared; otherwise the hovered item
      becomes the hit one, and only a different hit touches the highlight. */
  function OnPointerMove(st: Interaction, fpMode: bool, overUi: bool, meshesPresent: bool,
                         hit: Option<string>): (r: Interaction)
    ensures fpMode || overUi || !meshesPresent ==> !Truthy(r.hovered)
    ensures !fpMode && !overUi && meshesPresent ==> r.hovered == hit
    ensures !fpMode && !overUi && meshesPresent && hit == st.hovered ==> r == st
    ensures Good(st) ==> Good(r)
    ensures r.pointerDown == st.pointerDown && r.pending == st.pending && r.refs == st.refs
  {
    if fpMode || overUi || !meshesPresent then ClearHover(st)
    else
      if hit == st.hovered then st
      else
        var off := ClearHover(st);
        if Truthy(hit) then off.(hovered := hit, lit := off.lit + {hit.value})
        else off.(hovered := hit)
  }

  /** The pending item is consumed once: a second file change with no click
      in between reads nothing. */
  lemma PendingConsumedOnce(st: Interaction)
    ensures OnFileChange(OnFileChange(st, true).state, true).reading.None?
  {
  }

  /** Clicking an item and choosing a file stores the loaded photo for that
      item. */
  lemma ClickThenFileStoresPhoto(st: Interaction, down: Point, up: Point, id: string,
                                 mime: string, payload: string)
    requires Good(st) && IsClick(down, up) && id != ""
    requires forall c :: c in mime ==> c != ';' && c != ',' && !IsLineTerminator(c)
    requires ',' !in payload
    ensures var up1 := OnPointerUp(OnPointerDown(st, down), up, false, false, Some(id));
      var ch := OnFileChange(up1.state, true);
      var url := "data:" + mime + ";base64," + payload;
      && up1.chooserOpened && ch.reading == Some(id)
      && Lookup(OnFileLoaded(ch.state, id, url).refs, id) == Some(RefImage(Some(payload), mime, url))
  {
    DataUrlRoundTrip(mime, payload);
  }
}

=== FILE: room.dfy ===
/** The room view: wall and ceiling auto-hide, the named camera viewpoints
    and the cancellable camera transition with its ease-in-out cubic curve. */
module Room {
  import opened Wrappers
  import opened Config

  datatype Vec3 = Vec3(x: real, y: real, z: real)

  /** Visibility of the four wall groups and the ceiling. */
  datatype Walls = Walls(south: bool, north: bool, west: bool, east: bool, ceiling: bool)

  /** How close the camera may come to a wall before that wall hides. */
  const WallPad: real := 0.3
  /** How close the camera may come to the ceiling before it hides. */
  const CeilingPad: real := 0.2

  const AllVisible: Walls := Walls(true, true, true, true, true)

  /** `updateWallVisibility`: before the walls exist nothing happens; in locked
      first-person mode everything shows; otherwise a wall hides when the
      camera is at or beyond it (within the pad), and so does the ceiling. */
  function UpdateWallVisibility(walls: Option<Walls>, cam: Vec3, fpMode: bool, fpLocked: bool): (r: Option<Walls>)
    ensures r.None? <==> walls.None?
    ensures walls.Some? && fpMode && fpLocked ==> r == Some(AllVisible)
    ensures walls.Some? && !(fpMode && fpLocked) ==>
      && (r.value.south <==> cam.z > WallPad)
      && (r.value.north <==> cam.z < RoomLength - WallPad)
      && (r.value.west <==> cam.x > WallPad)
      && (r.value.east <==> cam.x < RoomWidth - WallPad)
      && (r.value.ceiling <==> cam.y < RoomHeight - CeilingPad)
  {
    if walls.None? then None
    else if fpMode && fpLocked then Some(AllVisible)
    else Some(Walls(cam.z > WallPad, cam.z < RoomLength - WallPad,
                    cam.x > WallPad, cam.x < RoomWidth - WallPad,
                    cam.y < RoomHeight - CeilingPad))
  }

  /** Two opposite walls are never hidden together, wherever the camera is. */
  lemma OppositeWallsNeverBothHidden(walls: Walls, cam: Vec3, fpMode: bool, fpLocked: bool)
    ensures var r := UpdateWallVisibility(Some(walls), cam, fpMode, fpLocked).value;
      (r.south || r.north) && (r.west || r.east)
  {
  }

  /** A camera inside the padded room, below the ceiling pad, sees every wall
      and the ceiling; a camera outside a wall's pad does not see that wall
      unless first-person mode is locked. */
  lemma InsideCameraSeesEverything(walls: Walls, cam: Vec3, fpMode: bool, fpLocked: bool)
    ensures WallPad < cam.x < RoomWidth - WallPad && WallPad < cam.z < RoomLength - WallPad
            && cam.y < RoomHeight - CeilingPad ==>
      UpdateWallVisibility(Some(walls), cam, fpMode, fpLocked) == Some(AllVisible)
    ensures !(fpMode && fpLocked) ==>
      var r := UpdateWallVisibility(Some(walls), cam, fpMode, fpLocked).value;
      && (cam.z <= 0.0 ==> !r.south)
      && (cam.z >= RoomLength ==> !r.north)
      && (cam.x <= 0.0 ==> !r.west)
      && (cam.x >= RoomWidth ==> !r.east)
      && (cam.y >= RoomHeight ==> !r.ceiling)
  {
  }

  // ------------------------------------------------------------ viewpoints

  /** A camera pose: position, orbit target and vertical field of view. */
  datatype Camera = Camera(pos: Vec3, target: Vec3, fov: real)

  const ViewNames: seq<string> := ["corner", "birdseye", "entrance", "window", "side"]

  /** The `VIEWS` table. */
  function LookupView(name: string): (r: Option<Camera>)
    ensures r.Some? <==> name in ViewNames
    ensures name == "corner" ==> r == Some(Camera(Vec3(8.0, 5.5, -2.0), Vec3(2.5, 0.5, 4.0), 50.0))
  {
    if name == "corner" then Some(Camera(Vec3(8.0, 5.5, -2.0), Vec3(2.5, 0.5, 4.0), 50.0))
    else if name == "birdseye" then Some(Camera(Vec3(2.5, 10.0, 4.0), Vec3(2.5, 0.0, 4.0), 55.0))
    else if name == "entrance" then Some(Camera(Vec3(2.5, 1.6, -0.3), Vec3(2.5, 1.2, 5.0), 65.0))
    else if name == "window" then Some(Camera(Vec3(2.5, 1.6, 8.3), Vec3(2.5, 1.0, 3.0), 65.0))
    else if name == "side" then Some(Camera(Vec3(9.0, 3.0, 4.0), Vec3(2.5, 0.6, 4.0), 45.0))
    else None
  }

  /** A transition length; the source never divides by zero because a zero
      length is replaced by the default. */
  type Duration = d: real | d != 0.0 witness 800.0

  const DefaultDuration: Duration := 800.0

  /** `duration || 800`: a missing or zero duration means 800 ms. */
  function EffectiveDuration(d: Option<real>): (r: Duration)
    ensures d.Some? && d.value != 0.0 ==> r == d.value
    ensures d.None? || d.value == 0.0 ==> r == DefaultDuration
  {
    if d.None? || d.value == 0.0 then DefaultDuration else d.value
  }

  /** One camera transition: where it started, where it goes, how long it
      takes, whether a newer transition cancelled it, and whether it has run
      its last frame. */
  datatype CameraAnim = CameraAnim(from: Camera, to: Camera, duration: Duration,
                                   cancelled: bool, finished: bool)

  predicate Running(a: CameraAnim) { !a.cancelled && !a.finished }

  /** The camera, whether `initViewpoints` has run, every transition started
      so far, and the index of the one `cameraAnim` points at. */
  datatype Viewer = Viewer(camera: Camera, initialized: bool, anims: seq<CameraAnim>,
                           current: Option<nat>)

  /** The transition invariant: the current transition is running and no
      other one is. */
  predicate Live(v: Viewer) {
    && (v.current.Some? ==> v.current.value < |v.anims| && Running(v.anims[v.current.value]))
    && forall i :: 0 <= i < |v.anims| && Running(v.anims[i]) ==> v.current == Some(i)
  }

  /** At most one transition is running at a time. */
  lemma AtMostOneRunning(v: Viewer, i: nat, j: nat)
    requires Live(v)
    requires i < |v.anims| && j < |v.anims| && Running(v.anims[i]) && Running(v.anims[j])
    ensures i == j
  {
  }

  /** `transitionToView`: an unknown name (or viewpoints not yet initialised)
      changes nothing; otherwise the previous transition is cancelled and a
      new one from the current camera to the view becomes current. */
  function TransitionToView(v: Viewer, name: string, duration: Option<real>): (r: Viewer)
    ensures LookupView(name).None? || !v.initialized ==> r == v
    ensures LookupView(name).Some? && v.initialized ==>
      && |r.anims| == |v.anims| + 1
      && r.current == Some(|v.anims|)
      && r.anims[|v.anims|] == CameraAnim(v.camera, LookupView(name).value, EffectiveDuration(duration), false, false)
      && r.camera == v.camera && r.initialized
      && (forall i :: 0 <= i < |v.anims| ==>
            r.anims[i] == if v.current == Some(i) then v.anims[i].(cancelled := true) else v.anims[i])
    ensures Live(v) ==> Live(r)
  {
    match LookupView(name)
    case None => v
    case Some(view) =>
      if !v.initialized then v
      else
        var prior := if v.current.Some? && v.current.value < |v.anims|
                   then v.anims[v.current.value := v.anims[v.current.value].(cancelled := true)]
                   else v.anims;
        var anim := CameraAnim(v.camera, view, EffectiveDuration(duration), false, false);
        v.(anims := prior + [anim], current := Some(|v.anims|))
  }

  function Cube(x: real): real { x * x * x }

  lemma CubeMonotone(x: real, y: real)
    requires 0.0 <= x <= y
    ensures 0.0 <= Cube(x) <= Cube(y)
  {
    NonNegProduct(x, x);
    NonNegProduct(x * x, x);
    NonNegProduct(y - x, y * y + x * y + x * x);
    assert Cube(y) - Cube(x) == (y - x) * (y * y + x * y + x * x);
  }

  /** The ease-in-out cubic curve: 0 at 0, 1 at 1, both branches meet at
      one half, and it stays in [0, 1] on [0, 1]. */
  function EaseInOutCubic(raw: real): (t: real)
    ensures raw == 0.0 ==> t == 0.0
    ensures raw == 1.0 ==> t == 1.0
    ensures raw == 0.5 ==> t == 0.5 == 4.0 * Cube(0.5)
    ensures 0.0 <= raw <= 1.0 ==> 0.0 <= t <= 1.0
    ensures 0.0 <= raw < 0.5 ==> t < 0.5
    ensures 0.5 <= raw <= 1.0 ==> 0.5 <= t
  {
    if raw < 0.5 then
      assert 0.0 <= raw ==> 0.0 <= Cube(raw) <= Cube(0.5) by {
        if 0.0 <= raw { CubeMonotone(raw, 0.5); }
      }
      assert 0.0 <= raw ==> Cube(raw) < Cube(0.5) by {
        if 0.0 <= raw {
          CubeMonotone(0.0, raw);
          assert Cube(0.5) - Cube(raw) == (0.5 - raw) * (0.25 + 0.5 * raw + raw * raw);
          assert raw * raw >= 0.0;
        }
      }
      4.0 * Cube(raw)
    else
      var u := -2.0 * raw + 2.0;
      assert raw <= 1.0 ==> 0.0 <= Cube(u) <= 1.0 by {
        if raw <= 1.0 { CubeMonotone(u, 1.0); }
      }
      1.0 - Cube(u) / 2.0
  }

  /** The curve never moves backwards on [0, 1]. */
  lemma EaseInOutCubicMonotone(a: real, b: real)
    requires 0.0 <= a <= b <= 1.0
    ensures EaseInOutCubic(a) <= EaseInOutCubic(b)
  {
    if b < 0.5 {
      CubeMonotone(a, b);
    } else if 0.5 <= a {
      CubeMonotone(-2.0 * b + 2.0, -2.0 * a + 2.0);
    }
  }

  function LerpVec(a: Vec3, b: Vec3, t: real): Vec3 {
    Vec3(Lerp(a.x, b.x, t), Lerp(a.y, b.y, t), Lerp(a.z, b.z, t))
  }

  function LerpCamera(a: Camera, b: Camera, t: real): (r: Camera)
    ensures t == 0.0 ==> r == a
    ensures t == 1.0 ==> r == b
  {
    Camera(LerpVec(a.pos, b.pos, t), LerpVec(a.target, b.target, t), Lerp(a.fov, b.fov, t))
  }

  /** `Math.min(elapsed / duration, 1)`. */
  function RawProgress(elapsed: real, d: Duration): (raw: real)
    ensures raw <= 1.0
  {
    Min(elapsed / d, 1.0)
  }

  /** For a positive duration the raw progress is the elapsed fraction until
      the duration has passed and 1 from then on, never negative after the
      start. */
  lemma RawProgressRegimes(elapsed: real, d: Duration)
    ensures 0.0 < d <= elapsed ==> RawProgress(elapsed, d) == 1.0
    ensures 0.0 <= elapsed <= d ==> RawProgress(elapsed, d) == elapsed / d
    ensures 0.0 <= elapsed && 0.0 < d ==> 0.0 <= RawProgress(elapsed, d)
  {
    DivFacts(elapsed, d);
  }

  lemma DivFacts(a: real, d: real)
    requires d != 0.0
    ensures 0.0 < d <= a ==> a / d >= 1.0
    ensures 0.0 <= a && 0.0 < d ==> a / d >= 0.0
    ensures (a / d) * d == a
  {
    if 0.0 < d <= a && a / d < 1.0 {
      assert false;
    }
  }

  /** One frame of transition `i`, `elapsed` ms after it started: a cancelled
      (or already finished) transition does nothing; otherwise the camera
      moves along the eased path, and the frame at which the raw progress
      reaches 1 lands exactly on the view and clears the current marker. */
  function StepTransition(v: Viewer, i: nat, elapsed: real): (r: Viewer)
    ensures i >= |v.anims| || !Running(v.anims[i]) ==> r == v
    ensures i < |v.anims| && Running(v.anims[i]) ==>
      var a := v.anims[i];
      var raw := RawProgress(elapsed, a.duration);
      && r.camera == LerpCamera(a.from, a.to, EaseInOutCubic(raw))
      && (raw == 1.0 ==> r.camera == a.to && r.current.None? && r.anims == v.anims[i := a.(finished := true)])
      && (raw < 1.0 ==> r.current == v.current && r.anims == v.anims)
  {
    if i >= |v.anims| || !Running(v.anims[i]) then v
    else
      var a := v.anims[i];
      var raw := RawProgress(elapsed, a.duration);
      var cam := LerpCamera(a.from, a.to, EaseInOutCubic(raw));
      if raw < 1.0 then v.(camera := cam)
      else v.(camera := cam, anims := v.anims[i := a.(finished := true)], current := None)
  }

  /** Frames keep the transition invariant. */
  lemma StepKeepsLive(v: Viewer, i: nat, elapsed: real)
    requires Live(v)
    ensures Live(StepTransition(v, i, elapsed))
  {
  }

  /** A transition that a newer one has cancelled never moves the camera again. */
  lemma {:induction false} CancelledTransitionIsInert(v: Viewer, name: string, d: Option<real>, i: nat, elapsed: real)
    requires Live(v) && v.current == Some(i)
    requires LookupView(name).Some? && v.initialized
    ensures var w := TransitionToView(v, name, d);
      StepTransition(w, i, elapsed) == w
  {
    var w := TransitionToView(v, name, d);
    assert w.anims[i].cancelled;
  }
}

=== FILE: spatial.dfy ===
/** The trust boundary for the reasoning service's reply: code-fence removal,
    the required-key check, the unknown-id filter and the room clamp, and the
    instruction handler that applies a validated plan or reports the failure. */
module Spatial {
  import opened Wrappers
  import opened Config
  import opened Text
  import opened Furniture

  /** One requested move. */
  datatype Action = Action(id: string, x: real, z: real)

  /** The parsed reply object; a field is `None` when it is absent. Only the
      truthiness of the three top-level keys matters to the check. */
  datatype Reply = Reply(actions: Option<seq<Action>>, roomDescription: Option<string>,
                         userMessage: Option<string>)

  /** A validated reply. */
  datatype Plan = Plan(actions: seq<Action>, roomDescription: string, userMessage: string)

  datatype ParseError = SyntaxError | MissingKeys

  // ---------------------------------------------------------------- fences

  /** Removes the first `k` characters and the whitespace run after them:
      what is removed past `k` is all whitespace and what is kept does not
      start with whitespace. */
  function DropFence(s: string, k: nat): (r: string)
    requires k <= |s|
    ensures |r| <= |s| - k && r == s[|s| - |r|..]
    ensures AllWhitespace(s[k..|s| - |r|])
    ensures |r| > 0 ==> !IsWhitespace(r[0])
  {
    var t := s[k..];
    var n := LeadingWs(t);
    assert forall i :: k <= i < k + n ==> s[i] == t[i - k];
    WhitespaceRange(s, k, k + n);
    assert k + n < |s| ==> s[k + n] == t[n];
    s[k + n..]
  }

  /** Dropping a fence of length `k` followed by the whitespace `ws` leaves
      exactly the body, when the body does not start with whitespace. */
  lemma DropFenceSkips(s: string, k: nat, ws: string, body: string)
    requires k + |ws| + |body| == |s|
    requires s[k..k + |ws|] == ws && s[k + |ws|..] == body
    requires AllWhitespace(ws)
    requires body == [] || !IsWhitespace(body[0])
    ensures DropFence(s, k) == body
  {
    var r := DropFence(s, k);
    var m := |s| - |r|;
    if body != [] {
      assert s[k + |ws|] == body[0];
    }
    assert forall i :: k <= i < k + |ws| ==> s[i] == ws[i - k];
  }

  /** The opening fence as the source's pattern `^```json?\s*\n?` removes it:
      "```json", or "```jso" when no "n" follows, then any whitespace. */
  function StripLeadingFenceAsWritten(s: string): (r: string)
    ensures !StartsWith(s, "```jso") ==> r == s
    ensures StartsWith(s, "```json") ==>
      |r| <= |s| - 7 && r == s[|s| - |r|..] && AllWhitespace(s[7..|s| - |r|])
    ensures StartsWith(s, "```jso") && !StartsWith(s, "```json") ==>
      |r| <= |s| - 6 && r == s[|s| - |r|..] && AllWhitespace(s[6..|s| - |r|])
    ensures StartsWith(s, "```jso") && |r| > 0 ==> !IsWhitespace(r[0])
  {
    if StartsWith(s, "```json") then DropFence(s, 7)
    else if StartsWith(s, "```jso") then DropFence(s, 6)
    else s
  }

  /** The opening fence with the language tag optional, as `^```(json)?\s*\n?`
      would remove it: a bare "```" fence is removed too. */
  function StripLeadingFence(s: string): (r: string)
    ensures !StartsWith(s, "```") ==> r == s
    ensures StartsWith(s, "```json") ==>
      |r| <= |s| - 7 && r == s[|s| - |r|..] && AllWhitespace(s[7..|s| - |r|])
    ensures StartsWith(s, "```") && !StartsWith(s, "```json") ==>
      |r| <= |s| - 3 && r == s[|s| - |r|..] && AllWhitespace(s[3..|s| - |r|])
    ensures StartsWith(s, "```") && |r| > 0 ==> !IsWhitespace(r[0])
  {
    if StartsWith(s, "```json") then DropFence(s, 7)
    else if StartsWith(s, "```") then DropFence(s, 3)
    else s
  }

  /** What the closing-fence pattern removes: "```" then only whitespace,
      possibly with one newline in front. */
  predicate FenceTail(t: string) {
    || (StartsWith(t, "```") && AllWhitespace(t[3..]))
    || (StartsWith(t, "\n```") && AllWhitespace(t[4..]))
  }

  /** The closing fence `\n?```\s*$`: a "```" followed only by whitespace,
      together with one newline just before it. `e` is where the trailing
      whitespace starts, so the fence is there exactly when the text up to
      `e` ends in "```". */
  function StripTrailingFence(s: string): (r: string)
    ensures !EndsWith(s[..TrailingWs(s)], "```") ==> r == s
    ensures EndsWith(s[..TrailingWs(s)], "```") ==>
      |r| <= |s| && r == s[..|r|] && FenceTail(s[|r|..])
    ensures EndsWith(s[..TrailingWs(s)], "```") ==>
      (StartsWith(s[|r|..], "\n```") <==> TrailingWs(s) >= 4 && s[TrailingWs(s) - 4] == '\n')
  {
    var e := TrailingWs(s);
    WhitespaceRange(s, e, |s|);
    StripFenceAt(s, e)
  }

  /** The closing-fence strip once the trailing whitespace is known to start
      at `e`. */
  function StripFenceAt(s: string, e: nat): (r: string)
    requires e <= |s| && AllWhitespace(s[e..|s|])
    ensures !EndsWith(s[..e], "```") ==> r == s
    ensures EndsWith(s[..e], "```") ==> |r| <= |s| && r == s[..|r|] && FenceTail(s[|r|..])
    ensures EndsWith(s[..e], "```") ==> (StartsWith(s[|r|..], "\n```") <==> e >= 4 && s[e - 4] == '\n')
  {
    if EndsWith(s[..e], "```") then
      if e >= 4 && s[e - 4] == '\n' then
        FenceWithNewline(s, e);
        s[..e - 4]
      else
        BareFenceTail(s, e);
        s[..e - 3]
    else s
  }

  lemma FenceWithNewline(s: string, e: nat)
    requires 4 <= e <= |s| && s[e - 4] == '\n' && EndsWith(s[..e], "```")
    requires AllWhitespace(s[e..|s|])
    ensures var r := s[..e - 4];
      |r| <= |s| && r == s[..|r|] && FenceTail(s[|r|..]) && StartsWith(s[|r|..], "\n```")
  {
    var t := s[e - 4..];
    assert s[e - 3..e] == s[..e][e - 3..];
    assert t[1..4] == s[e - 3..e] && t[..4] == [t[0]] + t[1..4];
    assert t[4..] == s[e..|s|];
  }

  lemma BareFenceTail(s: string, e: nat)
    requires 3 <= e <= |s| && EndsWith(s[..e], "```")
    requires AllWhitespace(s[e..|s|])
    ensures var r := s[..e - 3];
      |r| <= |s| && r == s[..|r|] && FenceTail(s[|r|..]) && !StartsWith(s[|r|..], "\n```")
  {
    var t := s[e - 3..];
    assert s[e - 3..e] == s[..e][e - 3..];
    assert t[..3] == "```" && t[3..] == s[e..|s|];
    assert t[0] == '`';
  }

  /** A body followed by a newline and a closing fence loses exactly those. */
  lemma StripClosing(body: string)
    ensures StripTrailingFence(body + "\n```") == body
  {
    var s := body + "\n```";
    assert !IsWhitespace(s[|s| - 1]);
    assert TrailingWs(s) == |s|;
    assert s[..|s|][|s| - 3..] == "```";
    assert s[|s| - 4] == '\n';
  }

  /** A lone closing fence leaves nothing. */
  lemma StripLoneFence()
    ensures StripTrailingFence("```") == []
  {
    assert !IsWhitespace("```"[2]);
    assert TrailingWs("```") == 3;
  }

  /** Text without trailing whitespace is its own prefix up to `TrailingWs`. */
  lemma TrimmedHasNoTail(t: string)
    requires t == [] || !IsWhitespace(t[|t| - 1])
    ensures TrailingWs(t) == |t| && t[..TrailingWs(t)] == t
  {
  }

  /** The text handed to the JSON parser. */
  function CleanResponse(text: string): (r: string)
    ensures var t := Trim(text); !StartsWith(t, "```") && !EndsWith(t, "```") ==> r == t
    ensures var t := Trim(text); var m := StripLeadingFence(t);
      |r| <= |m| <= |t| && m == t[|t| - |m|..] && r == m[..|r|]
  {
    TrimmedHasNoTail(Trim(text));
    StripTrailingFence(StripLeadingFence(Trim(text)))
  }

  /** The text handed to the JSON parser by the source's own fence pattern. */
  function CleanResponseAsWritten(text: string): (r: string)
    ensures var t := Trim(text); !StartsWith(t, "```jso") && !EndsWith(t, "```") ==> r == t
    ensures var t := Trim(text); var m := StripLeadingFenceAsWritten(t);
      |r| <= |m| <= |t| && m == t[|t| - |m|..] && r == m[..|r|]
  {
    TrimmedHasNoTail(Trim(text));
    StripTrailingFence(StripLeadingFenceAsWritten(Trim(text)))
  }

  /** A reply wrapped in a "```json" fence is unwrapped to exactly its body. */
  lemma {:induction false} JsonFenceRoundTrip(body: string)
    requires body == [] || !IsWhitespace(body[0])
    ensures CleanResponse("```json\n" + body + "\n```") == body
    ensures CleanResponseAsWritten("```json\n" + body + "\n```") == body
  {
    var s := "```json\n" + body + "\n```";
    TrimOfTrimmed(s);
    if body == [] {
      JsonOpeningEmpty();
      StripLoneFence();
    } else {
      JsonOpening(body);
      StripClosing(body);
    }
  }

  /** Both opening-fence strips remove "```json" and the newline after it. */
  lemma JsonOpening(body: string)
    requires body != [] && !IsWhitespace(body[0])
    ensures StripLeadingFence("```json\n" + body + "\n```") == body + "\n```"
    ensures StripLeadingFenceAsWritten("```json\n" + body + "\n```") == body + "\n```"
  {
    var s := "```json\n" + body + "\n```";
    assert s == "```json" + "\n" + (body + "\n```");
    FenceParts("```json", "\n", body + "\n```");
    DropFenceSkips(s, 7, "\n", body + "\n```");
    assert s[..6] == s[..7][..6];
    assert s[..3] == s[..7][..3];
  }

  /** With an empty body, both newlines go and the closing fence remains. */
  lemma JsonOpeningEmpty()
    ensures StripLeadingFence("```json\n" + [] + "\n```") == "```"
    ensures StripLeadingFenceAsWritten("```json\n" + [] + "\n```") == "```"
  {
    var s := "```json\n" + [] + "\n```";
    assert s == "```json" + "\n\n" + "```";
    FenceParts("```json", "\n\n", "```");
    DropFenceSkips(s, 7, "\n\n", "```");
    assert s[..6] == s[..7][..6];
    assert s[..3] == s[..7][..3];
  }

  lemma FenceParts(tag: string, ws: string, rest: string)
    ensures var s := tag + ws + rest;
      && s[..|tag|] == tag && s[|tag|..|tag| + |ws|] == ws && s[|tag| + |ws|..] == rest
  {
  }

  /** A reply wrapped in a bare "```" fence is unwrapped to exactly its body. */
  lemma {:induction false} BareFenceRoundTrip(body: string)
    requires body == [] || !IsWhitespace(body[0])
    ensures CleanResponse("```\n" + body + "\n```") == body
  {
    var s := "```\n" + body + "\n```";
    TrimOfTrimmed(s);
    assert s[3] == '\n';
    assert !StartsWith(s, "```json");
    if body == [] {
      assert s == "```" + "\n\n" + "```";
      FenceParts("```", "\n\n", "```");
      DropFenceSkips(s, 3, "\n\n", "```");
      StripLoneFence();
    } else {
      assert s == "```" + "\n" + (body + "\n```");
      FenceParts("```", "\n", body + "\n```");
      DropFenceSkips(s, 3, "\n", body + "\n```");
      StripClosing(body);
    }
  }

  /** The source's pattern leaves a bare opening fence in place: a body
      fenced with "```" reaches the parser still prefixed by "```\n", which
      is never valid JSON. */
  lemma {:induction false} BareFenceKeptAsWritten(body: string)
    ensures CleanResponseAsWritten("```\n" + body + "\n```") == "```\n" + body
  {
    var s := "```\n" + body + "\n```";
    TrimOfTrimmed(s);
    assert s[3] == '\n';
    assert !StartsWith(s, "```jso");
    assert s == ("```\n" + body) + "\n```";
    StripClosing("```\n" + body);
  }

  // ------------------------------------------------------------ validation

  predicate Truthy(o: Option<string>) { o.Some? && o.value != "" }

  /** `actions.filter(a => knownIds.includes(a.id))`. */
  function FilterKnown(actions: seq<Action>, knownIds: seq<string>): (r: seq<Action>)
    ensures |r| <= |actions|
    ensures forall a :: a in r <==> a in actions && a.id in knownIds
  {
    if actions == [] then []
    else
      var rest := FilterKnown(actions[1..], knownIds);
      assert forall a :: a in actions <==> a == actions[0] || a in actions[1..];
      if actions[0].id in knownIds then [actions[0]] + rest else rest
  }

  /** Filtering keeps the original order: it distributes over concatenation. */
  lemma {:induction false} FilterKnownAppend(xs: seq<Action>, ys: seq<Action>, knownIds: seq<string>)
    ensures FilterKnown(xs + ys, knownIds) == FilterKnown(xs, knownIds) + FilterKnown(ys, knownIds)
    decreases |xs|
  {
    if xs != [] {
      assert (xs + ys)[1..] == xs[1..] + ys;
      FilterKnownAppend(xs[1..], ys, knownIds);
    } else {
      assert xs + ys == ys;
    }
  }

  function Ids(items: seq<Item>): (r: seq<string>)
    ensures |r| == |items|
    ensures forall i :: 0 <= i < |items| ==> r[i] == items[i].id
  {
    seq(|items|, i requires 0 <= i < |items| => items[i].id)
  }

  lemma KnownIdFound(items: seq<Item>, id: string)
    requires id in Ids(items)
    ensures FindIndex(items, id).Some?
  {
    var k :| 0 <= k < |items| && Ids(items)[k] == id;
    assert items[k].id == id;
  }

  /** The target of `a` keeps the footprint of its record inside the room
      whenever that footprint fits at all. */
  predicate PlacedInBounds(items: seq<Item>, a: Action) {
    match FindIndex(items, a.id)
    case None => true
    case Some(i) =>
      items[i].w <= RoomWidth && items[i].d <= RoomLength ==> InBounds(items[i].(x := a.x, z := a.z))
  }

  /** Clamps the target into the room by the item's half-width and
      half-depth; an id with no record falls back to the bare room. */
  function ClampAction(a: Action, items: seq<Item>): (r: Action)
    ensures r.id == a.id
    ensures PlacedInBounds(items, r)
    ensures FindIndex(items, a.id).Some? ==>
      var it := items[FindIndex(items, a.id).value];
      && (it.w <= RoomWidth && it.d <= RoomLength ==> InBounds(it.(x := r.x, z := r.z)))
      && (InBounds(it.(x := a.x, z := a.z)) ==> r == a)
    ensures FindIndex(items, a.id).Some? ==>
      var it := items[FindIndex(items, a.id).value];
      && ClampsTo(a.x, it.w / 2.0, RoomWidth - it.w / 2.0, r.x)
      && ClampsTo(a.z, it.d / 2.0, RoomLength - it.d / 2.0, r.z)
    ensures FindIndex(items, a.id).None? ==>
      0.0 <= r.x <= RoomWidth && 0.0 <= r.z <= RoomLength
      && (0.0 <= a.x <= RoomWidth && 0.0 <= a.z <= RoomLength ==> r == a)
    ensures FindIndex(items, a.id).None? ==>
      ClampsTo(a.x, 0.0, RoomWidth, r.x) && ClampsTo(a.z, 0.0, RoomLength, r.z)
  {
    match FindIndex(items, a.id)
    case Some(i) =>
      var halfW := items[i].w / 2.0;
      var halfD := items[i].d / 2.0;
      Action(a.id, Clamp(a.x, halfW, RoomWidth - halfW), Clamp(a.z, halfD, RoomLength - halfD))
    case None =>
      Action(a.id, Clamp(a.x, 0.0, RoomWidth), Clamp(a.z, 0.0, RoomLength))
  }

  /** Clamping a clamped action changes nothing. */
  lemma ClampActionIdempotent(a: Action, items: seq<Item>)
    ensures ClampAction(ClampAction(a, items), items) == ClampAction(a, items)
  {
    var r := ClampAction(a, items);
    match FindIndex(items, a.id)
    case Some(i) =>
      ClampIdempotent(a.x, items[i].w / 2.0, RoomWidth - items[i].w / 2.0);
      ClampIdempotent(a.z, items[i].d / 2.0, RoomLength - items[i].d / 2.0);
    case None =>
  }

  /** The worked example: a sofa sent to (10, -3) lands at (3.9, 0.45). */
  lemma SofaClampExample()
    ensures ClampAction(Action("sofa", 10.0, -3.0), Catalog) == Action("sofa", 3.9, 0.45)
  {
    assert Catalog[0].id == "sofa";
    assert FindIndex(Catalog, "sofa") == Some(0);
  }

  function ClampAll(actions: seq<Action>, items: seq<Item>): (r: seq<Action>)
    ensures |r| == |actions|
    ensures forall i :: 0 <= i < |actions| ==> r[i] == ClampAction(actions[i], items)
  {
    seq(|actions|, i requires 0 <= i < |actions| => ClampAction(actions[i], items))
  }

  /** `parseSpatialResponse`: a reply the parser rejects is a syntax error; a
      reply missing (or with a falsy) `actions`, `room_description` or
      `user_message` is a missing-keys error; otherwise the plan holds the
      known-id actions in their original order, each clamped into the room. */
  function ParseSpatialResponse(text: string, decode: string -> Option<Reply>,
                                knownIds: seq<string>, items: seq<Item>): (r: Result<Plan, ParseError>)
    ensures r == Err(SyntaxError) <==> decode(CleanResponse(text)).None?
    ensures r == Err(MissingKeys) <==>
      var d := decode(CleanResponse(text));
      d.Some? && (d.value.actions.None? || !Truthy(d.value.roomDescription) || !Truthy(d.value.userMessage))
    ensures r.Ok? ==>
      var d := decode(CleanResponse(text)).value;
      && d.actions.Some?
      && r.value.roomDescription == d.roomDescription.value != ""
      && r.value.userMessage == d.userMessage.value != ""
      && |r.value.actions| == |FilterKnown(d.actions.value, knownIds)|
      && forall i :: 0 <= i < |r.value.actions| ==>
           r.value.actions[i] == ClampAction(FilterKnown(d.actions.value, knownIds)[i], items)
    ensures r.Ok? ==> forall a :: a in r.value.actions ==> a.id in knownIds && PlacedInBounds(items, a)
    ensures r.Ok? && knownIds == Ids(items) ==>
      forall a :: a in r.value.actions ==> FindIndex(items, a.id).Some?
  {
    match decode(CleanResponse(text))
    case None => Err(SyntaxError)
    case Some(reply) =>
      if reply.actions.None? || !Truthy(reply.roomDescription) || !Truthy(reply.userMessage) then
        Err(MissingKeys)
      else
        var kept := FilterKnown(reply.actions.value, knownIds);
        var plan := Plan(ClampAll(kept, items), reply.roomDescription.value, reply.userMessage.value);
        assert forall a :: a in plan.actions ==> a.id in knownIds && PlacedInBounds(items, a) by {
          forall a | a in plan.actions ensures a.id in knownIds && PlacedInBounds(items, a) {
            var i :| 0 <= i < |plan.actions| && plan.actions[i] == a;
            assert kept[i] in kept;
          }
        }
        assert knownIds == Ids(items) ==> forall a :: a in plan.actions ==> FindIndex(items, a.id).Some? by {
          if knownIds == Ids(items) {
            forall a | a in plan.actions ensures FindIndex(items, a.id).Some? { KnownIdFound(items, a.id); }
          }
        }
        Ok(plan)
  }

  // ------------------------------------------------------------- applying

  /** The last action of the list that targets `id`. */
  function LastFor(actions: seq<Action>, id: string): (r: Option<Action>)
    ensures r.Some? ==> r.value in actions && r.value.id == id
    ensures r.None? <==> forall a :: a in actions ==> a.id != id
  {
    if actions == [] then None
    else
      assert forall a :: a in actions <==> a == actions[0] || a in actions[1..];
      match LastFor(actions[1..], id)
      case Some(a) => Some(a)
      case None => if actions[0].id == id then Some(actions[0]) else None
  }

  /** The record after a plan: the last action for its id wins. */
  function PoseAfter(it: Item, actions: seq<Action>): Item {
    match LastFor(actions, it.id)
    case None => it
    case Some(a) => it.(x := a.x, z := a.z)
  }

  datatype Applied = Applied(room: RoomState, tweens: seq<Tween>)

  /** One pass of the handler's loop: an action whose id has a record
      writes the record's pose and animates its mesh; any other is skipped. */
  function ApplyOne(room: RoomState, a: Action): (r: Moved)
    ensures FindIndex(room.items, a.id).None? ==> r == Moved(room, None)
    ensures FindIndex(room.items, a.id).Some? ==> r.room.items == SetPose(room.items, a.id, Pos(a.x, a.z))
    ensures Ids(r.room.items) == Ids(room.items)
    ensures r.room.meshes == room.meshes
    ensures r.tween == if a.id in Ids(room.items) && a.id in room.meshes
                       then Some(Tween(room.meshes[a.id], Pos(a.x, a.z))) else None
    ensures r.room.history.Keys == room.history.Keys
    ensures forall k :: k in room.history && k != a.id ==> r.room.history[k] == room.history[k]
    ensures Valid(room) && a.id in room.meshes ==>
      r.room.history[a.id] == Recent(room.history[a.id] + [room.meshes[a.id]])
    ensures Valid(room) ==> Valid(r.room)
  {
    ListedIffFound(room.items, a.id);
    MeshHasRecord(room, a.id);
    if FindIndex(room.items, a.id).Some? then
      var r := PlaceAndAnimate(room, a.id, Pos(a.x, a.z));
      assert Ids(r.room.items) == Ids(room.items);
      r
    else Moved(room, None)
  }

  /** In a valid state every loaded mesh belongs to a record with a history. */
  lemma MeshHasRecord(room: RoomState, id: string)
    ensures Valid(room) && id in room.meshes ==>
      FindIndex(room.items, id).Some? && id in room.history
  {
    if Valid(room) && id in room.meshes {
      assert id in IdSet(room.items);
      assert HasId(room.items, id);
    }
  }

  /** The handler's loop: for each action with a record, write the record's
      pose, then animate its mesh. */
  function ApplyActions(room: RoomState, actions: seq<Action>): (r: Applied)
    ensures |r.room.items| == |room.items|
    ensures UniqueIds(room.items) ==>
      forall j :: 0 <= j < |room.items| ==> r.room.items[j] == PoseAfter(room.items[j], actions)
    ensures r.room.meshes == room.meshes
    ensures r.room.history.Keys == room.history.Keys
    ensures |r.tweens| <= |actions|
    ensures Valid(room) ==> Valid(r.room)
    decreases |actions|
  {
    if actions == [] then Applied(room, [])
    else
      var a := actions[0];
      var moved := ApplyOne(room, a);
      var rest := ApplyActions(moved.room, actions[1..]);
      assert UniqueIds(room.items) ==> UniqueIds(moved.room.items) by {
        if UniqueIds(room.items) {
          forall i, j | 0 <= i < j < |moved.room.items|
            ensures moved.room.items[i].id != moved.room.items[j].id
          {
            assert moved.room.items[i].id == room.items[i].id;
            assert moved.room.items[j].id == room.items[j].id;
          }
        }
      }
      assert UniqueIds(room.items) ==>
        forall j :: 0 <= j < |room.items| ==> rest.room.items[j] == PoseAfter(room.items[j], actions) by {
        if UniqueIds(room.items) {
          forall j | 0 <= j < |room.items|
            ensures rest.room.items[j] == PoseAfter(room.items[j], actions)
          {
            var it := room.items[j];
            assert rest.room.items[j] == PoseAfter(moved.room.items[j], actions[1..]);
            assert moved.room.items[j].id == it.id;
            if it.id == a.id {
              assert moved.room.items[j] == it.(x := a.x, z := a.z);
            } else {
              assert !HasId(room.items, a.id) ==> moved.room.items == room.items;
              assert moved.room.items[j] == it;
            }
          }
        }
      }
      var tweens := if moved.tween.Some? then [moved.tween.value] + rest.tweens else rest.tweens;
      Applied(rest.room, tweens)
  }

  /** The tweens a plan starts, in plan order: one per action whose id has
      a record and a loaded mesh, from the mesh's position to the action's
      (already clamped) pose. Meshes do not move while the plan is applied,
      so every start is the position the mesh had before the plan. */
  function Started(ids: seq<string>, meshes: map<string, Pos>, actions: seq<Action>): (r: seq<Tween>)
    ensures |r| <= |actions|
    decreases |actions|
  {
    if actions == [] then []
    else
      var a := actions[0];
      var rest := Started(ids, meshes, actions[1..]);
      if a.id in ids && a.id in meshes then [Tween(meshes[a.id], Pos(a.x, a.z))] + rest else rest
  }

  lemma ListedIffFound(items: seq<Item>, id: string)
    ensures id in Ids(items) <==> FindIndex(items, id).Some?
  {
    if id in Ids(items) { KnownIdFound(items, id); }
    if FindIndex(items, id).Some? { assert Ids(items)[FindIndex(items, id).value] == id; }
  }

  lemma ApplyActionsStep(room: RoomState, actions: seq<Action>)
    requires actions != []
    ensures var moved := ApplyOne(room, actions[0]);
      var rest := ApplyActions(moved.room, actions[1..]);
      && ApplyActions(room, actions).room == rest.room
      && ApplyActions(room, actions).tweens
         == (if moved.tween.Some? then [moved.tween.value] + rest.tweens else rest.tweens)
  {
  }

  /** The tweens a plan starts are exactly `Started`: one per action with a
      record and a mesh, from the mesh's position to the action's pose. */
  lemma {:induction false} PlanStartsTweens(room: RoomState, actions: seq<Action>)
    ensures ApplyActions(room, actions).tweens == Started(Ids(room.items), room.meshes, actions)
    decreases |actions|
  {
    if actions != [] {
      var moved := ApplyOne(room, actions[0]);
      ApplyActionsStep(room, actions);
      PlanStartsTweens(moved.room, actions[1..]);
    }
  }

  /** An id that no action of the plan names keeps its undo history. */
  lemma {:induction false} PlanKeepsUnnamedHistory(room: RoomState, actions: seq<Action>, k: string)
    requires k in room.history && LastFor(actions, k).None?
    ensures ApplyActions(room, actions).room.history[k] == room.history[k]
    decreases |actions|
  {
    if actions != [] {
      var moved := ApplyOne(room, actions[0]);
      ApplyActionsStep(room, actions);
      assert actions[0] in actions;
      assert forall x :: x in actions[1..] ==> x in actions;
      PlanKeepsUnnamedHistory(moved.room, actions[1..], k);
    }
  }

  /** An id with a mesh that the plan names ends with the mesh's pre-plan
      position on top of its history, so an undo takes it back there. */
  lemma {:induction false} PlanPushesStart(room: RoomState, actions: seq<Action>, k: string)
    requires Valid(room) && k in room.meshes && LastFor(actions, k).Some?
    ensures var h := ApplyActions(room, actions).room.history;
      k in h && h[k] != [] && h[k][|h[k]| - 1] == room.meshes[k]
    decreases |actions|
  {
    if LastFor(actions[1..], k).Some? {
      ApplyActionsStep(room, actions);
      PlanPushesStart(ApplyOne(room, actions[0]).room, actions[1..], k);
    } else {
      PushedByOnlyAction(room, actions, k);
    }
  }

  /** The case where the first action is the only one naming `k`. */
  lemma PushedByOnlyAction(room: RoomState, actions: seq<Action>, k: string)
    requires Valid(room) && k in room.meshes
    requires LastFor(actions, k).Some? && LastFor(actions[1..], k).None?
    ensures var h := ApplyActions(room, actions).room.history;
      k in h && h[k] != [] && h[k][|h[k]| - 1] == room.meshes[k]
  {
    var moved := ApplyOne(room, actions[0]);
    ApplyActionsStep(room, actions);
    LastIsFirst(actions, k);
    FirstActionPushes(room, actions[0]);
    PlanKeepsUnnamedHistory(moved.room, actions[1..], k);
  }

  /** When only the first action names `k`, that action is the last for `k`. */
  lemma LastIsFirst(actions: seq<Action>, k: string)
    requires LastFor(actions, k).Some? && LastFor(actions[1..], k).None?
    ensures actions[0].id == k
  {
  }

  /** Applying an action to an item with a mesh puts the mesh's position on
      top of that item's history. */
  lemma FirstActionPushes(room: RoomState, a: Action)
    requires Valid(room) && a.id in room.meshes
    ensures var h := ApplyOne(room, a).room.history;
      a.id in h && h[a.id] != [] && h[a.id][|h[a.id]| - 1] == room.meshes[a.id]
  {
    MeshHasRecord(room, a.id);
    RecentLast(room.history[a.id], room.meshes[a.id]);
  }

  /** Every validated plan keeps every record whose footprint fits the room
      inside the room: records named by the plan are clamped, the others are
      untouched. */
  lemma PlanKeepsItemsInBounds(room: RoomState, plan: Plan, text: string, decode: string -> Option<Reply>)
    requires UniqueIds(room.items)
    requires ParseSpatialResponse(text, decode, Ids(room.items), room.items) == Ok(plan)
    requires forall j :: 0 <= j < |room.items| ==> InBounds(room.items[j])
    requires forall j :: 0 <= j < |room.items| ==>
      room.items[j].w <= RoomWidth && room.items[j].d <= RoomLength
    ensures var after := ApplyActions(room, plan.actions).room;
      forall j :: 0 <= j < |after.items| ==> InBounds(after.items[j])
  {
    var after := ApplyActions(room, plan.actions).room;
    forall j | 0 <= j < |after.items| ensures InBounds(after.items[j]) {
      PoseAfterInBounds(room.items, j, plan.actions);
    }
  }

  lemma PoseAfterInBounds(items: seq<Item>, j: nat, actions: seq<Action>)
    requires UniqueIds(items) && j < |items|
    requires InBounds(items[j]) && items[j].w <= RoomWidth && items[j].d <= RoomLength
    requires forall a :: a in actions ==> PlacedInBounds(items, a)
    ensures InBounds(PoseAfter(items[j], actions))
  {
    match LastFor(actions, items[j].id)
    case None =>
    case Some(a) =>
      assert PlacedInBounds(items, a);
      assert FindIndex(items, a.id) == Some(j);
  }

  // -------------------------------------------------------------- handler

  /** How the HTTP exchange with the reasoning service ended. */
  datatype ApiReply =
    | FetchFailed                    // `fetch` rejected
    | HttpError(status: int)         // `response.ok` is false
    | BodyNotJson                    // `response.json()` threw a SyntaxError
    | NoContent                      // no candidate, content or parts
    | Content(text: Option<string>)  // `parts[0].text`; `None` when not a string

  /** The state an instruction reads and writes. */
  datatype Session = Session(room: RoomState, lastRoomDescription: string)

  /** The final transcript line shown for the instruction, if any. */
  datatype Report = Silent | Transcript(instruction: string, message: string)

  datatype Handled = Handled(session: Session, report: Report, tweens: seq<Tween>)

  const NoKeyMessage: string := "Please set your API key in config.js first."
  const NotUnderstoodMessage: string := "Could not understand that instruction. Please try again."
  const ApiErrorMessage: string := "API error. Please try again."

  /** The outcomes the handler reports as "could not understand": a
      SyntaxError from either JSON parse, or the missing-keys error. */
  predicate NotUnderstood(reply: ApiReply, decode: string -> Option<Reply>, items: seq<Item>) {
    || reply.BodyNotJson?
    || (reply.Content? && reply.text.Some?
        && ParseSpatialResponse(reply.text.value, decode, Ids(items), items).Err?)
  }

  /** Every other failure: transport, status, empty response, non-string text. */
  predicate ApiFailure(reply: ApiReply) {
    reply.FetchFailed? || reply.HttpError? || reply.NoContent? || (reply.Content? && reply.text.None?)
  }

  /** A reply whose text parses into a plan. */
  predicate Accepted(reply: ApiReply, decode: string -> Option<Reply>, items: seq<Item>) {
    reply.Content? && reply.text.Some?
    && ParseSpatialResponse(reply.text.value, decode, Ids(items), items).Ok?
  }

  /** `handleTextInstruction`: blank text does nothing; without a key only a
      hint is shown; a failure leaves the session untouched and reports one of
      two messages; a validated plan is applied, its room description kept
      and its user message reported. */
  function HandleTextInstruction(s: Session, text: string, hasKey: bool, reply: ApiReply,
                                 decode: string -> Option<Reply>): (r: Handled)
    ensures Trim(text) == [] ==> r == Handled(s, Silent, [])
    ensures Trim(text) != [] && !hasKey ==> r == Handled(s, Transcript(text, NoKeyMessage), [])
    ensures Trim(text) != [] && hasKey && NotUnderstood(reply, decode, s.room.items) ==>
      r == Handled(s, Transcript(text, NotUnderstoodMessage), [])
    ensures Trim(text) != [] && hasKey && ApiFailure(reply) ==>
      r == Handled(s, Transcript(text, ApiErrorMessage), [])
    ensures r.session != s ==> Trim(text) != [] && hasKey && Accepted(reply, decode, s.room.items)
    ensures Valid(s.room) ==> Valid(r.session.room)
  {
    if Trim(text) == [] then Handled(s, Silent, [])
    else if !hasKey then Handled(s, Transcript(text, NoKeyMessage), [])
    else if ApiFailure(reply) then Handled(s, Transcript(text, ApiErrorMessage), [])
    else if NotUnderstood(reply, decode, s.room.items) then Handled(s, Transcript(text, NotUnderstoodMessage), [])
    else
      var plan := ParseSpatialResponse(reply.text.value, decode, Ids(s.room.items), s.room.items).value;
      var applied := ApplyActions(s.room, plan.actions);
      Handled(Session(applied.room, plan.roomDescription), Transcript(text, plan.userMessage), applied.tweens)
  }

  /** An accepted plan is applied with the last action per record winning,
      its room description is kept and its user message reported. */
  lemma AcceptedPlanApplied(s: Session, text: string, reply: ApiReply, decode: string -> Option<Reply>)
    requires UniqueIds(s.room.items)
    requires Trim(text) != [] && Accepted(reply, decode, s.room.items)
    ensures var plan := ParseSpatialResponse(reply.text.value, decode, Ids(s.room.items), s.room.items).value;
      var r := HandleTextInstruction(s, text, true, reply, decode);
      && r.session.lastRoomDescription == plan.roomDescription
      && r.report == Transcript(text, plan.userMessage)
      && |r.session.room.items| == |s.room.items|
      && forall j :: 0 <= j < |s.room.items| ==>
           r.session.room.items[j] == PoseAfter(s.room.items[j], plan.actions)
  {
  }

  /** A reply the parser rejects (such as "not json") ends the instruction
      with the could-not-understand message and no change at all. */
  lemma MalformedReplyChangesNothing(s: Session, text: string, t: string, decode: string -> Option<Reply>)
    requires Trim(text) != []
    requires decode(CleanResponse(t)).None?
    ensures HandleTextInstruction(s, text, true, Content(Some(t)), decode)
            == Handled(s, Transcript(text, NotUnderstoodMessage), [])
  {
  }
}

=== FILE: text.dfy ===
/** The string primitives the application uses: JavaScript whitespace,
    `trim`, prefix/suffix tests, `toLowerCase` on ASCII and `join`. */
module Text {

  /** The characters matched by `\s` and removed by `String.prototype.trim`. */
  predicate IsWhitespace(c: char) {
    var n := c as int;
    || (9 <= n <= 13) || n == 32 || n == 0xA0 || n == 0x1680
    || (0x2000 <= n <= 0x200A) || n == 0x2028 || n == 0x2029
    || n == 0x202F || n == 0x205F || n == 0x3000 || n == 0xFEFF
  }

  /** The characters that end a line, which the regex `.` does not match. */
  predicate IsLineTerminator(c: char) {
    c == '\n' || c == '\r' || c as int == 0x2028 || c as int == 0x2029
  }

  predicate AllWhitespace(s: string) {
    forall i :: 0 <= i < |s| ==> IsWhitespace(s[i])
  }

  predicate StartsWith(s: string, p: string) {
    |p| <= |s| && s[..|p|] == p
  }

  predicate EndsWith(s: string, p: string) {
    |p| <= |s| && s[|s| - |p|..] == p
  }

  /** Drops the leading whitespace run: what is dropped is all whitespace and
      what is kept does not start with whitespace. */
  function TrimStart(s: string): (r: string)
    ensures |r| <= |s| && r == s[|s| - |r|..]
    ensures AllWhitespace(s[..|s| - |r|])
    ensures |r| > 0 ==> !IsWhitespace(r[0])
    decreases |s|
  {
    if |s| > 0 && IsWhitespace(s[0]) then TrimStart(s[1..]) else s
  }

  /** Drops the trailing whitespace run. */
  function TrimEnd(s: string): (r: string)
    ensures |r| <= |s| && r == s[..|r|]
    ensures AllWhitespace(s[|r|..])
    ensures |r| > 0 ==> !IsWhitespace(r[|r| - 1])
    decreases |s|
  {
    if |s| > 0 && IsWhitespace(s[|s| - 1]) then TrimEnd(s[..|s| - 1]) else s
  }

  lemma AllWhitespaceConcat(a: string, b: string)
    requires AllWhitespace(a) && AllWhitespace(b)
    ensures AllWhitespace(a + b)
  {
    forall i | 0 <= i < |a + b| ensures IsWhitespace((a + b)[i]) {
      if i >= |a| { assert (a + b)[i] == b[i - |a|]; }
    }
  }

  /** How many whitespace characters the text starts with. */
  function LeadingWs(s: string): (k: nat)
    ensures k <= |s|
    ensures forall i :: 0 <= i < k ==> IsWhitespace(s[i])
    ensures k < |s| ==> !IsWhitespace(s[k])
    decreases |s|
  {
    if |s| > 0 && IsWhitespace(s[0]) then
      var k := LeadingWs(s[1..]);
      assert forall i :: 1 <= i < k + 1 ==> s[i] == s[1..][i - 1];
      1 + k
    else 0
  }

  /** Where the trailing whitespace run of the text starts. */
  function TrailingWs(s: string): (k: nat)
    ensures k <= |s|
    ensures forall i :: k <= i < |s| ==> IsWhitespace(s[i])
    ensures k > 0 ==> !IsWhitespace(s[k - 1])
    decreases |s|
  {
    if |s| > 0 && IsWhitespace(s[|s| - 1]) then
      var k := TrailingWs(s[..|s| - 1]);
      assert forall i :: k <= i < |s| - 1 ==> s[i] == s[..|s| - 1][i];
      k
    else |s|
  }

  /** `String.prototype.trim`: the text between the leading and the trailing
      whitespace runs. */
  function Trim(s: string): (r: string)
    ensures |r| <= |s|
    ensures |r| > 0 ==> !IsWhitespace(r[0]) && !IsWhitespace(r[|r| - 1])
    ensures r == [] <==> AllWhitespace(s)
  {
    var a := LeadingWs(s);
    if a == |s| then []
    else
      var b := TrailingWs(s);
      assert a < b by { assert !IsWhitespace(s[a]); }
      assert !AllWhitespace(s) by { assert !IsWhitespace(s[a]); }
      s[a..b]
  }

  /** The text is the leading whitespace, the trimmed text and the trailing
      whitespace, in that order. */
  lemma TrimSplits(s: string)
    ensures var a := LeadingWs(s);
      var t := Trim(s);
      && a + |t| <= |s|
      && s == s[..a] + t + s[a + |t|..]
      && AllWhitespace(s[..a]) && AllWhitespace(s[a + |t|..])
  {
    var a := LeadingWs(s);
    var t := Trim(s);
    var e := if a == |s| then |s| else TrailingWs(s);
    assert a <= e && t == s[a..e];
    SliceSplit(s, a, e);
    WhitespaceRange(s, 0, a);
    WhitespaceRange(s, e, |s|);
  }

  lemma SliceSplit(s: string, a: nat, e: nat)
    requires a <= e <= |s|
    ensures s == s[..a] + s[a..e] + s[e..]
  {
    assert s[..e] == s[..a] + s[a..e];
    assert s == s[..e] + s[e..];
  }

  lemma WhitespaceRange(s: string, lo: nat, hi: nat)
    requires lo <= hi <= |s|
    requires forall i :: lo <= i < hi ==> IsWhitespace(s[i])
    ensures AllWhitespace(s[lo..hi])
  {
    forall i | 0 <= i < hi - lo ensures IsWhitespace(s[lo..hi][i]) {
      assert s[lo..hi][i] == s[lo + i];
    }
  }

  /** A string that neither starts nor ends with whitespace trims to itself. */
  lemma TrimOfTrimmed(s: string)
    requires |s| > 0 ==> !IsWhitespace(s[0]) && !IsWhitespace(s[|s| - 1])
    ensures Trim(s) == s
  {
    if |s| > 0 {
      assert LeadingWs(s) == 0;
      assert TrailingWs(s) == |s|;
    }
  }

  /** Trimming is idempotent. */
  lemma TrimIdempotent(s: string)
    ensures Trim(Trim(s)) == Trim(s)
  {
    TrimOfTrimmed(Trim(s));
  }

  /** `toLowerCase` restricted to what the key handlers compare against:
      ASCII letters fold, every other character is kept. */
  function LowerAscii(c: char): (r: char)
    ensures 'A' <= c <= 'Z' ==> 'a' <= r <= 'z' && r as int == c as int + 32
    ensures !('A' <= c <= 'Z') ==> r == c
  {
    if 'A' <= c <= 'Z' then (c as int + 32) as char else c
  }

  function ToLower(s: string): (r: string)
    ensures |r| == |s|
    ensures forall i :: 0 <= i < |s| ==> r[i] == LowerAscii(s[i])
  {
    seq(|s|, i requires 0 <= i < |s| => LowerAscii(s[i]))
  }

  /** `Array.prototype.join(sep)`. */
  function Join(parts: seq<string>, sep: string): (r: string)
    ensures |parts| == 1 ==> r == parts[0]
    ensures |parts| == 0 ==> r == []
    ensures |parts| > 0 ==> StartsWith(r, parts[0])
  {
    if |parts| == 0 then []
    else if |parts| == 1 then parts[0]
    else parts[0] + sep + Join(parts[1..], sep)
  }

  /** Where the `i`-th part starts in the joined string: every part appears
      in `Join(parts, sep)` at the returned offset. */
  function JoinOffset(parts: seq<string>, sep: string, i: nat): (k: nat)
    requires i < |parts|
    ensures k + |parts[i]| <= |Join(parts, sep)|
    ensures Join(parts, sep)[k..k + |parts[i]|] == parts[i]
    decreases |parts|
  {
    if i == 0 then 0
    else
      var rest := JoinOffset(parts[1..], sep, i - 1);
      assert parts[1..][i - 1] == parts[i];
      |parts[0]| + |sep| + rest
  }

  /** Lower-casing twice is lower-casing once. */
  lemma ToLowerIdempotent(s: string)
    ensures ToLower(ToLower(s)) == ToLower(s)
  {
    forall i | 0 <= i < |s| ensures LowerAscii(LowerAscii(s[i])) == LowerAscii(s[i]) { }
  }
}

=== FILE: voice.dfy ===
/** The voice input as a transition system: the microphone button's five
    states, the transcript accumulator and the one-shot reconnect flag, driven
    by clicks, socket events, timers and the settling of asynchronous work. */
module Voice {
  import opened Wrappers
  import opened Text

  datatype MicState = Disconnected | Connecting | Ready | Recording | Processing

  /** The microphone button as `setMicState` leaves it. */
  datatype Button = Button(text: string, disabled: bool, styleClass: Option<string>)

  /** `setMicState`'s effect on the button. */
  function ButtonFor(s: MicState): (b: Button)
    ensures b.disabled <==> s == Connecting || s == Processing
    ensures b.text == "STOP" <==> s == Recording
    ensures b.styleClass.None? <==> s == Disconnected || s == Connecting
  {
    match s
    case Disconnected => Button("MIC", false, None)
    case Connecting => Button("...", true, None)
    case Ready => Button("MIC", false, Some("ready"))
    case Recording => Button("STOP", false, Some("recording"))
    case Processing => Button("...", true, Some("processing"))
  }

  /** The module state: the button state, the transcript gathered for the
      current turn, whether the one automatic reconnect has been used, how
      many reconnect timers are pending, and whether an API key is set. */
  datatype Voice = Voice(mic: MicState, transcript: string, reconnectAttempted: bool,
                         pendingReconnects: nat, hasKey: bool)

  /** A parsed Live API message: only the fields the handler reads. */
  datatype Message = Message(setupComplete: bool, error: bool, transcription: string,
                             turnComplete: bool)

  datatype Event =
    | Click                          // the microphone button
    | MicGranted                     // `getUserMedia` resolved
    | MicDenied                      // `getUserMedia` (or audio setup) threw
    | ConnectTimeout                 // a connect's 10 s timer fired
    | Received(msg: Option<Message>) // a socket message; `None` when not JSON
    | InstructionSettled             // a dispatched instruction settled
    | Closed                         // the socket closed
    | ReconnectTimer                 // the 1 s reconnect timer fired
    | StartupTimer                   // the delayed first connect fired

  /** The new state and the instruction text handed to the instruction
      handler, if any. */
  datatype Stepped = Stepped(voice: Voice, dispatched: Option<string>)

  function Init(hasKey: bool): Voice {
    Voice(Disconnected, "", false, 0, hasKey)
  }

  /** `connectLiveAPI`: without a key nothing happens; otherwise the button
      shows connecting and the reconnect flag is re-armed. */
  function Connect(v: Voice): (r: Voice)
    ensures !v.hasKey ==> r == v
    ensures v.hasKey ==> r.mic == Connecting && !r.reconnectAttempted
    ensures r.transcript == v.transcript && r.pendingReconnects == v.pendingReconnects
  {
    if !v.hasKey then v else v.(mic := Connecting, reconnectAttempted := false)
  }

  /** The automatic reconnect with the flag left as the close handler set
      it, so that a second close gives up. */
  function Reconnect(v: Voice): (r: Voice)
    ensures !v.hasKey ==> r == v
    ensures v.hasKey ==> r.mic == Connecting && r.reconnectAttempted == v.reconnectAttempted
    ensures r.(mic := v.mic) == v
  {
    if !v.hasKey then v else v.(mic := Connecting)
  }

  /** `stopRecording`'s state effect. */
  function StopRecording(v: Voice): (r: Voice)
    ensures r.mic == Processing && r.transcript == v.transcript
    ensures r.(mic := v.mic) == v
  {
    v.(mic := Processing)
  }

  /** `handleMicClick`: disconnected connects (given a key); ready clears the
      transcript and starts acquiring the microphone; recording stops; a busy
      button ignores the click. */
  function OnClick(v: Voice): (r: Voice)
    ensures ButtonFor(v.mic).disabled ==> r == v
    ensures v.mic == Disconnected ==> r == Connect(v)
    ensures v.mic == Ready ==> r == v.(transcript := "")
    ensures v.mic == Recording ==> r.mic == Processing
  {
    match v.mic
    case Disconnected => Connect(v)
    case Ready => v.(transcript := "")
    case Recording => StopRecording(v)
    case _ => v
  }

  /** `onclose`: a recording is stopped first; the first close schedules a
      reconnect and marks it used; a close after that gives up. */
  function OnClose(v: Voice): (r: Voice)
    ensures !v.reconnectAttempted ==>
      r.reconnectAttempted && r.pendingReconnects == v.pendingReconnects + 1
      && r.mic == (if v.mic == Recording then Processing else v.mic)
    ensures v.reconnectAttempted ==> r.mic == Disconnected && r.pendingReconnects == v.pendingReconnects
    ensures r.transcript == v.transcript
  {
    var stopped := if v.mic == Recording then StopRecording(v) else v;
    if !stopped.reconnectAttempted then
      stopped.(reconnectAttempted := true, pendingReconnects := stopped.pendingReconnects + 1)
    else stopped.(mic := Disconnected)
  }

  /** A turn-complete message: a non-blank transcript is dispatched trimmed
      (the button returns to ready once it settles); a blank one returns to
      ready at once; the transcript is emptied either way. */
  function OnTurnComplete(v: Voice): (r: Stepped)
    ensures r.voice.transcript == ""
    ensures r.dispatched.Some? <==> Trim(v.transcript) != []
    ensures r.dispatched.Some? ==> r.dispatched.value == Trim(v.transcript) && r.voice.mic == v.mic
    ensures r.dispatched.None? ==> r.voice.mic == Ready
  {
    var text := Trim(v.transcript);
    if text != [] then Stepped(v.(transcript := ""), Some(text))
    else Stepped(v.(mic := Ready, transcript := ""), None)
  }

  /** `onmessage`: unparsable and error messages are ignored; setup-complete
      means ready; otherwise a transcription fragment is appended and a
      turn-complete flag ends the turn. */
  function OnMessage(v: Voice, m: Option<Message>): (r: Stepped)
    ensures m.None? ==> r == Stepped(v, None)
    ensures m.Some? && m.value.setupComplete ==> r == Stepped(v.(mic := Ready), None)
    ensures m.Some? && !m.value.setupComplete && m.value.error ==> r == Stepped(v, None)
    ensures m.Some? && !m.value.setupComplete && !m.value.error && !m.value.turnComplete ==>
      r == Stepped(v.(transcript := v.transcript + m.value.transcription), None)
    ensures m.Some? && !m.value.setupComplete && !m.value.error && m.value.turnComplete ==>
      r == OnTurnComplete(v.(transcript := v.transcript + m.value.transcription))
  {
    match m
    case None => Stepped(v, None)
    case Some(msg) =>
      if msg.setupComplete then Stepped(v.(mic := Ready), None)
      else if msg.error then Stepped(v, None)
      else
        var appended := if msg.transcription != "" then v.(transcript := v.transcript + msg.transcription) else v;
        assert appended == v.(transcript := v.transcript + msg.transcription) by {
          if msg.transcription == "" { assert v.transcript + msg.transcription == v.transcript; }
        }
        if msg.turnComplete then OnTurnComplete(appended) else Stepped(appended, None)
  }

  /** The reconnect timer: when one is pending it is consumed and the socket
      reconnects. */
  function OnReconnectTimer(v: Voice): (r: Voice)
    ensures v.pendingReconnects == 0 ==> r == v
    ensures v.pendingReconnects > 0 ==> r == Reconnect(v.(pendingReconnects := v.pendingReconnects - 1))
  {
    if v.pendingReconnects == 0 then v
    else Reconnect(v.(pendingReconnects := v.pendingReconnects - 1))
  }

  /** The reconnect timer as the source runs it: `connectLiveAPI` again, which
      re-arms the reconnect flag. */
  function OnReconnectTimerAsWritten(v: Voice): (r: Voice)
    ensures v.pendingReconnects > 0 && v.hasKey ==> r.mic == Connecting && !r.reconnectAttempted
  {
    if v.pendingReconnects == 0 then v
    else Connect(v.(pendingReconnects := v.pendingReconnects - 1))
  }

  /** One event of the voice transition system. */
  function Step(v: Voice, e: Event): (r: Stepped)
    ensures r.voice.hasKey == v.hasKey
    ensures e.ConnectTimeout? ==> r.voice == (if v.mic == Connecting then v.(mic := Disconnected) else v)
    ensures e.MicGranted? ==> r.voice == v.(mic := Recording)
    ensures e.MicDenied? || e.InstructionSettled? ==> r.voice == v.(mic := Ready)
    ensures r.dispatched.Some? ==> e.Received? && e.msg.Some? && e.msg.value.turnComplete
  {
    match e
    case Click => Stepped(OnClick(v), None)
    case MicGranted => Stepped(v.(mic := Recording), None)
    case MicDenied => Stepped(v.(mic := Ready), None)
    case ConnectTimeout => Stepped(if v.mic == Connecting then v.(mic := Disconnected) else v, None)
    case Received(m) => OnMessage(v, m)
    case InstructionSettled => Stepped(v.(mic := Ready), None)
    case Closed => Stepped(OnClose(v), None)
    case ReconnectTimer => Stepped(OnReconnectTimer(v), None)
    case StartupTimer => Stepped(Connect(v), None)
  }

  /** What reaches the instruction handler is never blank and carries no
      surrounding whitespace. */
  lemma DispatchedIsTrimmed(v: Voice, e: Event)
    ensures var r := Step(v, e);
      r.dispatched.Some? ==> r.dispatched.value != [] && Trim(r.dispatched.value) == r.dispatched.value
  {
    var r := Step(v, e);
    if r.dispatched.Some? {
      var m := e.msg.value;
      var appended := if m.transcription != "" then v.(transcript := v.transcript + m.transcription) else v;
      assert r == OnTurnComplete(appended);
      TrimIdempotent(appended.transcript);
    }
  }

  /** The same system with the source's reconnect timer. */
  function StepAsWritten(v: Voice, e: Event): (r: Stepped)
    ensures !e.ReconnectTimer? ==> r == Step(v, e)
    ensures e.ReconnectTimer? ==> r.dispatched.None?
    ensures e.ReconnectTimer? && v.pendingReconnects > 0 && v.hasKey ==>
      r.voice.mic == Connecting && !r.voice.reconnectAttempted
    ensures e.ReconnectTimer? && v.pendingReconnects > 0 && v.hasKey && v.reconnectAttempted ==>
      r.voice != Step(v, e).voice
  {
    if e.ReconnectTimer? then Stepped(OnReconnectTimerAsWritten(v), None) else Step(v, e)
  }

  /** Runs a sequence of events, dropping the dispatched texts. */
  function Run(v: Voice, es: seq<Event>): Voice
    decreases |es|
  {
    if es == [] then v else Run(Step(v, es[0]).voice, es[1..])
  }

  function RunAsWritten(v: Voice, es: seq<Event>): Voice
    decreases |es|
  {
    if es == [] then v else RunAsWritten(StepAsWritten(v, es[0]).voice, es[1..])
  }

  function Concat(frags: seq<string>): string
    decreases |frags|
  {
    if frags == [] then [] else frags[0] + Concat(frags[1..])
  }

  /** The messages that carry only transcription fragments. */
  function FragmentMessages(frags: seq<string>): (es: seq<Event>)
    ensures |es| == |frags|
  {
    seq(|frags|, i requires 0 <= i < |frags| => Received(Some(Message(false, false, frags[i], false))))
  }

  /** Transcription fragments accumulate in arrival order and change nothing
      else. */
  lemma {:induction false} FragmentsAccumulateInOrder(v: Voice, frags: seq<string>)
    ensures Run(v, FragmentMessages(frags)) == v.(transcript := v.transcript + Concat(frags))
    decreases |frags|
  {
    if frags == [] {
      assert v.transcript + [] == v.transcript;
    } else {
      var es := FragmentMessages(frags);
      var v1 := Step(v, es[0]).voice;
      StepFragment(v, frags[0]);
      assert es[1..] == FragmentMessages(frags[1..]);
      FragmentsAccumulateInOrder(v1, frags[1..]);
      assert v1.transcript + Concat(frags[1..]) == v.transcript + Concat(frags);
    }
  }

  /** One transcription fragment appends to the transcript. */
  lemma StepFragment(v: Voice, f: string)
    ensures Step(v, Received(Some(Message(false, false, f, false)))).voice == v.(transcript := v.transcript + f)
  {
    var m := Message(false, false, f, false);
    var r := OnMessage(v, Some(m));
    assert Step(v, Received(Some(m))) == r;
    if f == "" {
      assert v.transcript + f == v.transcript;
    }
  }

  /** With the source's reconnect, every close of a connection that the
      reconnect opened schedules yet another reconnect: however many times
      the connection fails, the state never reaches disconnected and the
      "voice unavailable" branch is never taken. */
  lemma {:induction false} ReconnectNeverGivesUpAsWritten(v: Voice, n: nat)
    requires v.hasKey && !v.reconnectAttempted && v.mic == Connecting
    ensures var r := RunAsWritten(v, Rounds(n));
      r.mic == Connecting && !r.reconnectAttempted && r.pendingReconnects == v.pendingReconnects
    decreases n
  {
    if n > 0 {
      var v1 := StepAsWritten(v, Closed).voice;
      var v2 := StepAsWritten(v1, ReconnectTimer).voice;
      assert v2 == v;
      assert Rounds(n)[..2] == [Closed, ReconnectTimer];
      RunAppend(v, [Closed, ReconnectTimer], Rounds(n - 1));
      assert Rounds(n) == [Closed, ReconnectTimer] + Rounds(n - 1);
      ReconnectNeverGivesUpAsWritten(v2, n - 1);
    }
  }

  /** `n` rounds of a failing connection: close, then the reconnect timer. */
  function Rounds(n: nat): (es: seq<Event>)
    ensures |es| == 2 * n
    decreases n
  {
    if n == 0 then [] else [Closed, ReconnectTimer] + Rounds(n - 1)
  }

  lemma {:induction false} RunAppend(v: Voice, xs: seq<Event>, ys: seq<Event>)
    ensures RunAsWritten(v, xs + ys) == RunAsWritten(RunAsWritten(v, xs), ys)
    decreases |xs|
  {
    if xs != [] {
      assert (xs + ys)[1..] == xs[1..] + ys;
      RunAppend(StepAsWritten(v, xs[0]).voice, xs[1..], ys);
    } else {
      assert xs + ys == ys;
    }
  }

  /** With the reconnect keeping its flag, a connection that fails again
      after the automatic reconnect ends disconnected. */
  lemma ReconnectGivesUpAfterOneRetry(v: Voice)
    requires v.hasKey && !v.reconnectAttempted && v.pendingReconnects == 0
    ensures var r := Run(v, [Closed, ReconnectTimer, Closed]);
      r.mic == Disconnected && r.pendingReconnects == 0
  {
    var v1 := Step(v, Closed).voice;
    var v2 := Step(v1, ReconnectTimer).voice;
    var v3 := Step(v2, Closed).voice;
    assert v3.mic == Disconnected;
    assert [Closed, ReconnectTimer, Closed][1..] == [ReconnectTimer, Closed];
    assert [ReconnectTimer, Closed][1..] == [Closed];
    assert [Closed][1..] == [];
  }

  lemma RunFour(v: Voice, e1: Event, e2: Event, e3: Event, e4: Event)
    ensures Run(v, [e1, e2, e3, e4])
         == Step(Step(Step(Step(v, e1).voice, e2).voice, e3).voice, e4).voice
  {
    var es := [e1, e2, e3, e4];
    var a := Step(v, e1).voice;
    var b := Step(a, e2).voice;
    var c := Step(b, e3).voice;
    var d := Step(c, e4).voice;
    assert es[1..] == [e2, e3, e4];
    assert [e2, e3, e4][1..] == [e3, e4];
    assert [e3, e4][1..] == [e4];
    assert [e4][1..] == [];
    assert Run(c, [e4]) == Run(d, []) == d;
    assert Run(b, [e3, e4]) == Run(c, [e4]);
    assert Run(a, [e2, e3, e4]) == Run(b, [e3, e4]);
    assert Run(v, es) == Run(a, [e2, e3, e4]);
  }

  /** A turn-complete message with no fragment of its own dispatches the
      trimmed transcript when it is not blank. */
  lemma TurnCompleteDispatches(v: Voice)
    requires Trim(v.transcript) != []
    ensures Step(v, Received(Some(Message(false, false, "", true)))).dispatched == Some(Trim(v.transcript))
  {
    var done := Message(false, false, "", true);
    assert Step(v, Received(Some(done))) == OnMessage(v, Some(done)) == OnTurnComplete(v);
  }

  /** Recording one fragment from ready: click, microphone granted, the
      fragment, click to stop. */
  lemma RecordOneFragment(v: Voice, frag: string)
    requires v.mic == Ready
    ensures var r := Run(v, [Click, MicGranted, Received(Some(Message(false, false, frag, false))), Click]);
      r.mic == Processing && r.transcript == frag
  {
    var e3 := Received(Some(Message(false, false, frag, false)));
    var a := Step(v, Click).voice;
    assert a == v.(transcript := "");
    var b := Step(a, MicGranted).voice;
    assert b == a.(mic := Recording);
    var c := Step(b, e3).voice;
    StepFragment(b, frag);
    assert c.transcript == "" + frag == frag;
    var d := Step(c, Click).voice;
    assert d == c.(mic := Processing);
    RunFour(v, Click, MicGranted, e3, Click);
  }

  /** A full spoken turn: click on ready, microphone granted, a fragment,
      click to stop, turn complete: the trimmed transcript is dispatched. */
  lemma SpokenTurnDispatchesTranscript(v: Voice, frag: string)
    requires v.mic == Ready && Trim(frag) != []
    ensures var v1 := Run(v, [Click, MicGranted, Received(Some(Message(false, false, frag, false))), Click]);
      Step(v1, Received(Some(Message(false, false, "", true)))).dispatched == Some(Trim(frag))
  {
    RecordOneFragment(v, frag);
    TurnCompleteDispatches(Run(v, [Click, MicGranted, Received(Some(Message(false, false, frag, false))), Click]));
  }
}

=== FILE: wrappers.dfy ===
/** Failure-carrying datatypes shared by every module of the model. */
module Wrappers {

  /** A value that may be missing: JavaScript's `null`/`undefined` on one side. */
  datatype Option<+T> = None | Some(value: T)

  /** The outcome of an operation that can throw: `Ok` or the error it raised. */
  datatype Result<+T, +E> = Ok(value: T) | Err(error: E)
}
